=== FILE: README.md ===
# Basnechkin bot — a Dafny model of its orchestration core

The bot writes fables in the manner of Krylov for a parent's children. A
four-question intake dialogue collects the children's names, age and traits
and, optionally, a real situation to work through. After that, every free-text
message becomes a story request:

1. the profile is read through a five-minute cache;
2. an antiflood manager allows at most one generation at a time, one every 15
   seconds and 15 in any sliding day;
3. a language-model router may patch the profile and proposes a prompt;
4. the prompt is wrapped in a header naming the children;
5. the generated fable is stored (keeping five per user) and sent in parts of
   at most 3800 characters, except for the story made only of line breaks
   described under "## Findings".

The model is functional. Tables, the cache, the antiflood maps and the
dialogue state are immutable values, and every handler is a pure function of
them and of its inputs. The inputs include:

- the time of the event, and the time the generation finishes;
- for each database call site, whether that call fails (a failing read
  answers "nothing there", as the repository's exception handlers do; a
  failing write is rolled back and reported);
- the router's parsed reply;
- the generator's output.

| file | module | what it holds |
|---|---|---|
| `wrappers.dfy` | `Wrappers` | `Option` |
| `text.dfy` | `Text` | Python's `strip` and `lower`, decimal rendering and parsing, substring test |
| `models.dfy` | `Models` | the `users`, `stories` and `contexts` rows; `to_dict` |
| `history.dfy` | `History` | keeping the newest rows of a group, and reading them newest first |
| `repository.dfy` | `Repository` | the repository functions over an in-memory store, with its integrity invariant |
| `antiflood.dfy` | `Antiflood` | the antiflood manager and its refusal texts |
| `profile_cache.dfy` | `ProfileCache` | the TTL cache |
| `split_message.dfy` | `SplitMessage` | `split_message`, as written and corrected |
| `agent_router.dfy` | `AgentRouter` | the post-processing of the router's reply |
| `story_prompt.dfy` | `StoryPrompt` | the children's header around the prompt |
| `bot.dfy` | `Bot` | the handlers, the dispatch of `main`, and whole-bot invariants |

Points of the code's behaviour the model follows closely:

- **Cache expiry.** An entry expires only when its age is strictly greater than
  the TTL, so an entry exactly TTL old is still served.
- **/reset.** It is a separate handler ahead of the dialogue. It deletes the
  profile, the cached copy and the caller's own intake answers, and leaves the
  dialogue state where it was.
- **/cancel.** It ends the dialogue without clearing the stored answers.
- **Failed writes.** A failed write does not invalidate the cache.
- **The first story.** The story at the end of the intake is not gated by the
  antiflood manager.

Time is a whole number of seconds. Rows with equal creation times are ordered
by position, which is insertion and id order. This choice is the model's;
the database leaves such ties unordered. Every trimming property is stated in
creation times and holds whatever the tie-break.

## Model

| member | source | states |
|---|---|---|
| Text.Strip | src/bot.py:81 | the result is the slice of the input between its leading and trailing Python whitespace, and starts and ends with a non-space |
| Text.StripIdempotent | src/bot.py:315-318 | stripping an already stripped answer changes nothing |
| Text.Lower | src/bot.py:144 | keeps the length and lowers position by position, so that an answer like "НЕТ" or "Нет" reads as "нет" |
| Text.IntToStringRoundTrip | src/db/models.py:36 | the decimal rendering of an integer is a well-formed numeral that parses back to the same integer |
| Text.IntToStringInjective | src/db/models.py:36 | different ids never render as the same `user_id` string |
| Models.OrEmpty | src/db/models.py:38-44 | a NULL column reads as '' and a set column as its value |
| Models.ToDict | src/db/models.py:33-48 | `user_id` is the decimal id, `telegram_id` and `story_total` are copied, and every nullable text column is read with NULL as '' |
| Models.ToDictForgetsOnlyNulls | src/db/models.py:33-48 | two rows project to the same dictionary exactly when they agree on id and counter and on every text column up to NULL-versus-'' |
| Models.UserIdIsDecimalId | src/db/models.py:36-37 | the `user_id` string parses back to `telegram_id` |
| History.SelectMember | src/db/repository.py:195-198 | a row is selected exactly when it is in the table and its group membership is the one asked for |
| History.Trim | src/db/repository.py:195-204 | keeps min(n, limit) rows of the group, leaves every row outside the group in place and in order, and holds no row more often than the table did |
| History.TrimKeepsNewest | src/db/repository.py:198-204 | only rows of the table are kept, and no dropped row of the group is newer than a kept one |
| History.TrimKeepsLatest | src/db/repository.py:173-176 | when the last inserted row is the newest of its group, trimming to at least one row keeps it |
| History.TakeNewestLength | src/db/repository.py:218-220 | returns min(n, limit) rows, n being the size of the group |
| History.TakeNewestSub | src/db/repository.py:218-220 | returns no row more often than the table holds it |
| History.TakeNewestMembers | src/db/repository.py:218-220 | every returned row is a row of the group |
| History.TakeNewestSorted | src/db/repository.py:218-220 | the returned rows are in non-increasing creation time |
| History.TakeNewestTop | src/db/repository.py:218-220 | no row of the group left out is newer than a returned one |
| History.NewestIndex | src/db/repository.py:297-304 | points at a row of the group that no other row of the group is newer than |
| History.OldestIndex | src/db/repository.py:198-204 | points at a row of the group that no other row of the group is older than |
| Repository.EmptyStoreValid | src/db/models.py:26-27 | the empty database satisfies the integrity invariant (foreign keys, at most five stories and five archived contexts per user, story and context ids distinct and below the next id to be handed out) |
| Repository.GetUser | src/db/repository.py:23-38 | the projection of the user's row, or None exactly when there is no such user or the query raises |
| Repository.UpsertUserProfile | src/db/repository.py:41-91 | an existing user gets new names, age and traits, keeps the old username for an empty one, changes the context only when one is given, and keeps the counter; a new user starts at 0 with '' as context; a failure changes nothing; the invariant is kept |
| Repository.UpdateUserFields | src/db/repository.py:94-120 | a missing user or a failed commit changes nothing and reports failure; otherwise every given column key is set and every other column is kept; the invariant is kept |
| Repository.UpdateIgnoresUnknownKeys | src/db/repository.py:107-109 | keys that name no column (such as `last_user_message`) have no effect |
| Repository.IncrementStoryTotal | src/db/repository.py:123-145 | returns the counter plus one and stores it, or 0 with nothing changed for a missing user or a failed commit |
| Repository.TrimStories | src/db/repository.py:189-208 | the user keeps min(n, limit) stories, nobody else's stories move, no story is kept more often than it was stored, and no deleted story of the user is newer than a kept one |
| Repository.TrimStoriesOthers | src/db/repository.py:195-204 | trimming one user's stories leaves every other user's story count unchanged |
| Repository.SaveStory | src/db/repository.py:148-186 | commits exactly when the user exists and nothing fails; then the counter grows by one, the user keeps min(n+1, 5) stories, other users' stories and all contexts are untouched, no row is kept more often than the old table plus the new story hold it, the new story is not already stored in a valid database, and no deleted story of the user is newer than a kept one; a failure leaves the store as it was; the invariant is kept |
| Repository.SaveStoryKeepsNewStory | src/db/repository.py:155-176 | with a clock that does not run backwards, the story just saved survives the trim |
| Repository.GetLastStories | src/db/repository.py:211-236 | at most `limit` of the user's stories, none more often than stored, newest first, and no story of the user left out is newer than one returned; nothing when the query raises |
| Repository.GetLastStoriesUnique | src/db/repository.py:218-231 | in a valid database no story is returned twice |
| Repository.TrimContexts | src/db/repository.py:269-287 | keeps min(n, limit) contexts of that user and kind, no other row moves, no context is kept more often than it was stored, and none dropped is newer than one kept |
| Repository.AddContext | src/db/repository.py:239-266 | a context of any kind but archived is appended without trimming; an archived one leaves min(n+1, 5) archived contexts of the user, keeps the newest of them, holds no row twice and touches no other row; the new context is not already stored in a valid database; a missing user or failure changes nothing; the invariant is kept |
| Repository.AddContextKeepsNewContext | src/db/repository.py:247-258 | with a clock that does not run backwards, the context just added is kept, whatever its kind |
| Repository.GetActiveContext | src/db/repository.py:290-309 | None exactly when the user has no active context, else the content of an active context no other is newer than |
| Repository.DeleteUserProfile | src/db/repository.py:312-333 | removes the user with exactly their stories and contexts and nothing else; a missing user or failure changes nothing; the invariant is kept |
| Antiflood.Cleanup | src/utils.py:21-32 | the user's list becomes the times within the last day, an absent user getting an empty one |
| Antiflood.RecentMember | src/utils.py:28-32 | a time survives cleanup exactly when it is newer than a day before now |
| Antiflood.RecentIdempotent | src/utils.py:21-32 | cleaning up twice at the same time removes nothing more |
| Antiflood.RecentLater | src/utils.py:21-32 | cleaning up at an earlier and then a later time is cleaning up at the later time |
| Antiflood.CanGenerate | src/utils.py:39-78 | refuses as busy exactly while generating; otherwise refuses on the daily limit exactly when the window holds at least the limit; otherwise refuses exactly when less than the cooldown has passed, with the remaining seconds; only the cleanup changes the state |
| Antiflood.HintFor | src/utils.py:55-59 | hours and minutes (under 60) that account for the remaining seconds to within a minute |
| Antiflood.StartGeneration | src/utils.py:80-82 | marks only this user as generating and changes nothing else |
| Antiflood.FinishGeneration | src/utils.py:84-96 | clears the flag, records `now` as last generation, and the window becomes the cleaned list plus `now`; other users are untouched |
| Antiflood.AllowedRunStaysWithinLimit | src/utils.py:50-96 | one allowed generation, finished no earlier than it started, leaves at most the daily limit in the window |
| Antiflood.CooldownAfterFinish | src/utils.py:71-76 | within the cooldown after a finished generation no request is allowed |
| Antiflood.StartIsolated | src/utils.py:80-82 | starting one user's generation never changes another user's verdict |
| Antiflood.FinishIsolated | src/utils.py:84-96 | finishing one user's generation never changes another user's verdict |
| Antiflood.CheckIsolated | src/utils.py:39-78 | one user's check never changes another user's verdict |
| Antiflood.RefusalText | src/utils.py:47-76 | the busy text, a limit text opening with the configured limit, or a cooldown text, by verdict; the numbers each text carries are stated by Antiflood.RefusalShowsNumbers |
| Antiflood.RefusalShowsNumbers | src/utils.py:62-76 | the cooldown text shows the seconds left and the limit text the daily limit, each as a numeral that parses back, and a limit text with a known wait contains the wait text |
| Antiflood.WaitText | src/utils.py:61-64 | the hours part appears exactly when at least an hour remains |
| Antiflood.WaitTextReadsBack | src/utils.py:58-64 | the wait text opens with the hours, followed by the minutes after the hours unit, or opens with the minutes when no hour remains; each numeral parses back |
| ProfileCache.Get | src/utils.py:106-116 | the stored profile exactly when there is an entry no older than the TTL; an expired entry is removed |
| ProfileCache.Set | src/utils.py:118-120 | stores the profile stamped now and leaves other entries alone |
| ProfileCache.Invalidate | src/utils.py:122-125 | removes the entry; a user without one is left unchanged |
| ProfileCache.GetAfterSet | src/utils.py:106-120 | a profile is read back while the TTL has not run out |
| ProfileCache.GetAfterExpiry | src/utils.py:110-114 | after the TTL the profile reads as absent, and stays absent |
| ProfileCache.GetAfterInvalidate | src/utils.py:122-125 | after invalidation nothing is read |
| ProfileCache.GetIsStable | src/utils.py:106-116 | a read never changes what a later read returns |
| SplitMessage.SentencesCover | src/utils.py:140-151 | the sentences put together are the text; none is empty; every one but the last ends in . ! or ? and is longer than ten characters |
| SplitMessage.ParagraphsJoin | src/utils.py:153-154 | the paragraphs joined with the blank-line break give the text back |
| SplitMessage.HardSlices | src/utils.py:166-169 | non-empty slices of at most the width that put together give the input |
| SplitMessage.PackCovers | src/utils.py:159-174 | packing loses nothing (the pieces put together are the parts) and no piece exceeds the width |
| SplitMessage.AsWrittenExceedsLimit | src/utils.py:176 | the text "\n\n\n\n" with limit 3 comes back whole, longer than the limit |
| SplitMessage.SplitAsWritten | src/utils.py:128-176 | `split_message` as written: a text within the limit is one message; the result is never empty; it is either the whole text or messages within the limit, and always within the limit when the text holds a character other than a line break |
| SplitMessage.Split | src/utils.py:128-176 | the corrected split: a text within the limit is one message; the result is never empty; no message exceeds the limit |
| SplitMessage.SplitAgreesWhenPacked | src/utils.py:128-176 | the corrected split equals the original whenever the original does not fall back |
| SplitMessage.SplitAgreesUnlessOnlyBreaks | src/utils.py:128-176 | the corrected and the original split agree on every text holding a character other than a line break |
| SplitMessage.SplitContent | src/utils.py:140-176 | the messages are the packed pieces, stripped or sliced, and those pieces make up the text (sentence route) or its paragraphs (paragraph route) |
| SplitMessage.PartsChoice | src/utils.py:152-156 | the sentence route is taken whenever no sentence is over the limit |
| AgentRouter.Fallback | src/agent_router.py:116-131 | the fallback does not ask for an update, has an empty patch and a non-empty prompt |
| AgentRouter.FallbackQuotesMessage | src/agent_router.py:122 | the fallback prompt contains the user's message |
| AgentRouter.FilterPatch | src/agent_router.py:105-111 | for an object, the keys are exactly the whitelisted ones present with a non-null value, each value stringified; a number, boolean or null raises; no other value ever yields a patch entry |
| AgentRouter.PyStrNumberReadsBack | src/agent_router.py:109 | a stringified integer reads back as the integer |
| AgentRouter.Normalise | src/agent_router.py:96-131 | a failed call or a non-object reply yields the fallback; an object gets False, {} and the default prompt for missing keys, passes a present prompt through unchanged and filters its patch; a raising patch yields the fallback; every patch key is whitelisted |
| AgentRouter.NormaliseIdempotent | src/agent_router.py:96-114 | normalising a normalised decision gives it back unchanged |
| AgentRouter.PatchNeverTouchesContext | src/agent_router.py:107 | a patch never carries `context_active` |
| StoryPrompt.Sections | src/bot.py:320-334 | names first, the assignment line and the closing line last, and the age, traits and situation lines present exactly when non-empty; that the lines come in rank order is stated by StoryPrompt.SectionsInOrder |
| StoryPrompt.AssemblePrompt | src/bot.py:314-336 | without children's names the routed prompt is sent unchanged |
| StoryPrompt.HeaderShape | src/bot.py:320-334 | with names the prompt opens with the heroes' title and names and ends with the assignment line and the closing reminder |
| StoryPrompt.SituationShown | src/bot.py:318-331 | the situation block is present exactly when the stripped active context is non-empty |
| Bot.StartCommand | src/bot.py:44-76 | a registered user is welcomed back and the dialogue ends; anyone else, or anyone whose lookup fails, is asked for the names and the dialogue begins |
| Bot.HandleName | src/bot.py:79-85 | keeps the stripped names and moves on to the age |
| Bot.HandleAge | src/bot.py:88-97 | keeps the stripped age and moves on to the traits |
| Bot.HandleTraits | src/bot.py:100-135 | a failed save changes nothing and ends the dialogue; otherwise the user's row holds the answers (missing ones as '') and the stripped traits, keeps its counter and active context (a new row starts at 0 with ''), keeps the old username for an empty display name, no other row changes, and only the user's cached profile is dropped |
| Bot.HandleSituation | src/bot.py:138-176 | "нет" in any letter case is acknowledged, keeps every context and a story attempt follows; any other answer that cannot be stored is reported and changes nothing, with no story; a stored one becomes the active context and a story attempt follows; the invariant is kept |
| Bot.SituationAsksForAnswer | src/bot.py:144-170 | the first story is routed as the fixed first-story task after "нет", and otherwise as the situation task quoting the stripped answer, which the prompt then quotes when the router is down |
| Bot.SituationReachesPrompt | src/bot.py:153-170 | after a stored answer whose re-read succeeds, the profile the first story is asked with carries the answer as its active context, so the situation block is part of the prompt when the children have names and the answer is not blank |
| Bot.CancelCommand | src/bot.py:179-182 | the dialogue ends |
| Bot.ResetCommand | src/bot.py:185-215 | without a profile (or when the lookup fails) nothing changes; a failed delete changes nothing; otherwise the database becomes the delete's result, the user's rows, stories, contexts and cached profile are gone and only the caller's intake answers are cleared |
| Bot.ResetKeepsOthers | src/bot.py:185-215 | another user's answers, row, stories, contexts and cached profile survive a reset |
| Bot.LoadProfile | src/bot.py:263-267 | a fresh cached profile, else the stored one (then cached), else none when there is no user or the read fails; other cache entries are untouched |
| Bot.Refresh | src/bot.py:157-160 | the user's cached profile is replaced by the stored one stamped now, or dropped when there is none or the read fails; other entries are untouched |
| Bot.ApplyPatch | src/bot.py:290-301 | nothing happens unless the router asks for an update with a non-empty patch; then the database becomes the result of that update; after a committed update the cache entry and the profile in hand become the re-read row, or the entry is dropped and the old profile kept when the re-read fails; other cache entries stay; a patch without `context_active` leaves every active context as it was |
| Bot.PatchReadsBack | src/bot.py:294-301 | after a committed and re-read update, each patched column shows its new value, every other column its old one, and the counter is unchanged |
| Bot.Prepare | src/bot.py:262-301 | no plan exactly when neither cache nor database yields a profile; otherwise the plan holds the normalised router reply for the message and loaded profile, and the profile after applying its update; stories and contexts are untouched |
| Bot.GenerateAndSend | src/bot.py:253-375 | no profile exactly when neither cache nor database yields one; a failed generation is one whose output for the assembled prompt is missing or empty; a delivered story is that output, non-empty, sent as the corrected split in parts of at most 3800 characters; no story is stored unless one is delivered; contexts survive; the invariant is kept |
| Bot.GenerateRoutesMessage | src/bot.py:280 | the request is built from the router's reply for the very message the story was asked for; with the router down it is the fallback prompt, which quotes that message |
| Bot.OutcomeFollowsPlan | src/bot.py:262-342 | no profile exactly when there is no plan, an empty prompt exactly when the plan's prompt is falsy, and otherwise the generator is asked with the patched profile and the router's prompt as text |
| Bot.Deliver | src/bot.py:342-362 | the story is the generator's output for the request's prompt; an empty or failed generation stores nothing; otherwise the database becomes the result of saving the story and the story is sent as the corrected split |
| Bot.PartsAsWritten | src/bot.py:356-357 | the parts sent are exactly those of `split_message` as written, for every story holding a character other than a line break |
| Bot.HandleMessage | src/bot.py:218-250 | the dialogue state and answers are untouched and the invariant is kept; without a story attempt the store is unchanged and the one reply is the /start hint or the antiflood refusal |
| Bot.MessageAsksForText | src/bot.py:221-248 | a story attempt for free text asks the generator with the router's prompt for the user's stripped message; with the router down that prompt quotes the message |
| Bot.Step | src/bot.py:386-400 | every event keeps the database invariant |
| Bot.StepKeepsIdle | src/bot.py:245-250 | every started generation is finished in the same event, so no user stays marked as generating |
| Bot.IdleNeverBusy | src/bot.py:239-242 | with events handled one at a time the busy refusal never occurs |
| Bot.RefusalStoresNothing | src/bot.py:239-242 | a refused request stores nothing and sends no story part |
| Bot.NoProfileNoStory | src/bot.py:226-236 | without a profile, or when its lookup fails, the reply sends the user to /start and nothing changes |
| Bot.DialogueEnds | src/bot.py:144-182 | the situation answer and /cancel end the dialogue, and /cancel keeps the stored profile |
| Bot.OnlyStoryRequestsTouchFlood | src/bot.py:150-170 | intake answers (including the first story) and commands never touch the antiflood state |
| Bot.AllowedRequestIsRecorded | src/bot.py:245-250 | an allowed request is recorded as finished at its finishing time whatever its outcome |
| Bot.GenerateKeepsContexts | src/bot.py:289-354 | a story request never changes any user's active context |
| Bot.NoKeepsContext | src/bot.py:144-151 | answering "нет" in any letter case leaves the active context as it was |
| Bot.AnswerBecomesContext | src/bot.py:152-170 | any other answer becomes the active context when the write succeeds |
| Bot.LoadedProfileIsStored | src/bot.py:263-273 | with a coherent cache, a profile is found for every stored user unless the read fails, never for anyone else, and agrees with the stored row up to the story counter |
| Bot.StepKeepsCacheCoherent | src/bot.py:124-160 | every handler leaves each cached profile in agreement with its stored row, up to the story counter |
| Bot.DeliveredStoryIsCounted | src/bot.py:353-354 | a delivered story belongs to a stored user and, unless its save fails, adds one to their counter |

## Left out

- The calls to the language model and to the generator, and the Telegram transport. The router's parsed reply and the generator's output are inputs. Status-message edits and deletions are folded into the reply list.
- The fixed reply texts of the bot. They are represented by reply kinds; the antiflood refusal texts are modelled in full.
- Concurrency. Events are handled one at a time, so the in-flight flag is only ever seen clear (`Bot.IdleNeverBusy`).
- Sub-second clock readings, and the `created_at`/`updated_at` timestamps of `to_dict`. Time is whole seconds.
- JSON floating-point numbers. Numbers are integers.
- AgentRouter.PyStr: arrays and objects in a patch are stringified as a fixed placeholder, not as Python's `repr`.
- Text.Lower: lowers only the Latin and Cyrillic capitals, not every Unicode letter. Only these can turn an answer into "нет".
- Antiflood.CanGenerate: with whole-second time the cooldown refusal always names at least one second. With fractional time the original can truncate the wait to 0 seconds.
- AgentRouter.FilterPatch: its contract does not say which strings and lists raise. A string raises when it contains a whitelisted key; a list raises when it has one as an element. The body models this, and both cases lead to the fallback.
- Repository.AddContext: adding a context for a missing user is a failure, as the foreign key makes it. No caller adds contexts.
- Repository.UpdateUserFields: sets only the seven text columns. Other attributes accepted by `hasattr`, such as `story_total`, timestamps and relationships, are not modelled; no caller passes them.
- The logging in every function, and the migration-hint branch of `upsert_user_profile`.
- src/sheets.py, src/deepseek_client.py, src/config.py, the migrations and the maintenance scripts are not part of this model.
- Bot.Deliver: sends the corrected split (`SplitMessage.Split`), so its parts never exceed 3800 characters. The original sends `split_message` as written, which returns a story made only of line breaks and longer than the limit as one message (see Findings). For every other story the two agree (`Bot.PartsAsWritten`).
- Bot.GenerateAndSend: sends the corrected split, as Bot.Deliver does; its bound of 3800 characters per part holds for the original only on stories holding a character other than a line break.
- Whether a database call fails is fixed per call site for one event. A handler that made the same call twice could not see it fail once and succeed once; no handler does.
- Bot.Step: keys the intake state by user alone. The `ConversationHandler` of `main` keys it by chat and user, so a user in the middle of the intake in a private chat who writes in a group gets a story request there; the model sends that text to the intake. The model assumes each user talks to the bot in one chat.
- Bot.GenerateAndSend: a truthy non-string prompt is rendered with `str()` before the header is added even when there are no names. The original passes such a value to the generator unrendered.

## Findings

| source | as written | input that shows it | evidently intended | confidence | as-written member | corrected member |
|---|---|---|---|---|---|---|
| src/utils.py:176 | when packing yields no message, the whole text is returned as one message, although it is longer than the limit | a text made only of paragraph breaks, e.g. "\n\n\n\n" with a limit of 3: it splits into empty paragraphs, packing emits nothing, and `["\n\n\n\n"]` comes back | no message exceeds the limit | not executed | SplitMessage.SplitAsWritten, SplitMessage.AsWrittenExceedsLimit | SplitMessage.Split |

=== FILE: agent_router.dfy ===
/**
 * The normalisation half of the message router: the parsed reply of the
 * language model becomes a routing decision (whether to update the profile,
 * a whitelisted profile patch, the prompt for the story generator), and
 * anything unusable becomes the fallback decision. The model call itself is
 * outside the model; its parsed reply, or its failure, is the input.
 */
module AgentRouter {
  import opened Wrappers
  import opened Text

  /** A JSON value as `json.loads` delivers it (numbers restricted to integers). */
  datatype Json =
    | JNull
    | JBool(b: bool)
    | JNum(n: int)
    | JStr(s: string)
    | JArray(items: seq<Json>)
    | JObject(fields: map<string, Json>)

  const ShouldUpdateKey: string := "should_update_profile"
  const PatchKey: string := "profile_patch"
  const PromptKey: string := "deepseek_user_prompt"

  /** The only keys a profile patch may carry, in the order they are examined. */
  const PatchKeys: seq<string> := ["child_names", "age", "traits", "last_user_message"]

  const DefaultPrompt: string := "Напиши басню по мотивам Крылова."

  const FallbackOpening: string := "Напиши басню по мотивам Крылова на основе запроса: "

  function FallbackPrompt(userMessage: string): string {
    FallbackOpening + userMessage
  }

  /** The routing decision handed to the bot. */
  datatype Routed = Routed(shouldUpdate: Json, patch: map<string, string>, prompt: Json)

  /** The decision returned when the model call fails or its reply cannot be used. */
  function Fallback(userMessage: string): (r: Routed)
    ensures !Truthy(r.shouldUpdate) && r.patch == map[]
    ensures r.prompt.JStr? && Truthy(r.prompt)
  {
    Routed(JBool(false), map[], JStr(FallbackPrompt(userMessage)))
  }

  /** Python truthiness of a JSON value. */
  predicate Truthy(j: Json) {
    match j
    case JNull => false
    case JBool(b) => b
    case JNum(n) => n != 0
    case JStr(s) => s != ""
    case JArray(items) => |items| > 0
    case JObject(fields) => |fields| > 0
  }

  /**
   * `str()` of a value: exact for strings, integers, booleans and null;
   * arrays and objects are rendered as a fixed placeholder.
   */
  function PyStr(j: Json): (r: string)
    ensures j.JStr? ==> r == j.s
  {
    match j
    case JNull => "None"
    case JBool(b) => if b then "True" else "False"
    case JNum(n) => IntToString(n)
    case JStr(s) => s
    case JArray(_) => "[…]"
    case JObject(_) => "{…}"
  }

  /** An integer in a patch is stored as decimal text that reads back as the same integer. */
  lemma {:induction false} PyStrNumberReadsBack(n: int)
    ensures var s := PyStr(JNum(n));
      && |s| >= 1
      && (s[0] == '-' ==> AllDigits(s[1..]))
      && (s[0] != '-' ==> AllDigits(s))
      && ParseInt(s) == n
  {
    IntToStringRoundTrip(n);
  }

  /**
   * The null-filtering loop over `profile_patch`. `None` stands for the
   * `TypeError` Python raises: membership in a number, boolean or null, and
   * subscripting a string or a list with a key it contains.
   */
  function FilterPatch(p: Json): (r: Option<map<string, string>>)
    ensures p.JObject? ==> r.Some?
    ensures r.Some? ==> forall k :: k in r.value ==> k in PatchKeys
    ensures r.Some? && p.JObject? ==>
      forall k :: k in r.value <==> k in PatchKeys && k in p.fields && p.fields[k] != JNull
    ensures r.Some? && p.JObject? ==>
      forall k :: k in r.value ==> r.value[k] == PyStr(p.fields[k])
    ensures r.Some? && !p.JObject? ==> r.value == map[]
    ensures (p.JNull? || p.JBool? || p.JNum?) ==> r.None?
  {
    match p
    case JObject(f) =>
      Some(map k | k in PatchKeys && k in f && f[k] != JNull :: PyStr(f[k]))
    case JStr(s) =>
      if exists i :: 0 <= i < |PatchKeys| && IsSubstring(PatchKeys[i], s) then None else Some(map[])
    case JArray(items) =>
      if exists i :: 0 <= i < |PatchKeys| && JStr(PatchKeys[i]) in items then None else Some(map[])
    case _ => None
  }

  /**
   * `process_message` after the model call: `reply` is the parsed reply, or
   * `None` when the call or the parse failed. An object gets the missing
   * keys filled with their defaults and its patch filtered; any other reply,
   * and a patch the filter raises on, yields the fallback.
   */
  function Normalise(reply: Option<Json>, userMessage: string): (r: Routed)
    ensures forall k :: k in r.patch ==> k in PatchKeys
    ensures reply.None? || !reply.value.JObject? ==> r == Fallback(userMessage)
    ensures reply.Some? && reply.value.JObject? ==>
      var f := reply.value.fields;
      var patch := if PatchKey in f then f[PatchKey] else JObject(map[]);
      && (FilterPatch(patch).None? ==> r == Fallback(userMessage))
      && (FilterPatch(patch).Some? ==>
            && r.patch == FilterPatch(patch).value
            && r.shouldUpdate == (if ShouldUpdateKey in f then f[ShouldUpdateKey] else JBool(false))
            && r.prompt == (if PromptKey in f then f[PromptKey] else JStr(DefaultPrompt)))
  {
    if reply.None? || !reply.value.JObject? then Fallback(userMessage)
    else
      var f := reply.value.fields;
      var shouldUpdate := if ShouldUpdateKey in f then f[ShouldUpdateKey] else JBool(false);
      var patch := if PatchKey in f then f[PatchKey] else JObject(map[]);
      var prompt := if PromptKey in f then f[PromptKey] else JStr(DefaultPrompt);
      match FilterPatch(patch)
      case None => Fallback(userMessage)
      case Some(p) => Routed(shouldUpdate, p, prompt)
  }

  /** The decision written back as the JSON object it is returned as. */
  function ToJson(r: Routed): Json {
    JObject(map[
      ShouldUpdateKey := r.shouldUpdate,
      PatchKey := StringsAsJson(r.patch),
      PromptKey := r.prompt])
  }

  /** Normalising a normalised decision gives it back unchanged. */
  lemma {:induction false} NormaliseIdempotent(reply: Option<Json>, userMessage: string)
    ensures var r := Normalise(reply, userMessage); Normalise(Some(ToJson(r)), userMessage) == r
  {
    var r := Normalise(reply, userMessage);
    var f := ToJson(r).fields;
    assert ShouldUpdateKey != PatchKey && PatchKey != PromptKey && ShouldUpdateKey != PromptKey;
    assert ShouldUpdateKey in f && f[ShouldUpdateKey] == r.shouldUpdate;
    assert PromptKey in f && f[PromptKey] == r.prompt;
    assert PatchKey in f && f[PatchKey] == StringsAsJson(r.patch);
    FilterStrings(r.patch);
  }

  function StringsAsJson(patch: map<string, string>): Json {
    JObject(map k | k in patch :: JStr(patch[k]))
  }

  /** A patch of whitelisted string values passes the filter unchanged. */
  lemma {:induction false} FilterStrings(patch: map<string, string>)
    requires forall k :: k in patch ==> k in PatchKeys
    ensures FilterPatch(StringsAsJson(patch)) == Some(patch)
  {
    var j := StringsAsJson(patch);
    var r := FilterPatch(j).value;
    forall k | k in patch ensures k in r && r[k] == patch[k] {
      assert j.fields[k] == JStr(patch[k]);
    }
    assert r.Keys == patch.Keys;
    assert r == patch;
    assert FilterPatch(j).Some?;
  }

  /**
   * A missing, unparsable or non-object reply never leaves the bot without
   * a prompt: the fallback prompt quotes the user's message.
   */
  lemma {:induction false} FallbackQuotesMessage(userMessage: string)
    ensures IsSubstring(userMessage, Fallback(userMessage).prompt.s)
  {
    var p := Fallback(userMessage).prompt.s;
    var i := |p| - |userMessage|;
    assert p[i..i + |userMessage|] == userMessage;
    assert OccursAt(userMessage, p, i);
  }

  /** A patch never carries `context_active`, so routing cannot change the active context. */
  lemma {:induction false} PatchNeverTouchesContext(reply: Option<Json>, userMessage: string)
    ensures "context_active" !in Normalise(reply, userMessage).patch
  {
  }
}

=== FILE: antiflood.dfy ===
/**
 * The antiflood manager of the bot: at most one generation per user at a
 * time, a cooldown between two generations, and a limit on generations in
 * any sliding day. Time is a parameter (whole seconds since the epoch).
 */
module Antiflood {
  import opened Text
  import History

  /** Length of the sliding window of the daily limit, in seconds. */
  const Day: int := 86400
  const DefaultCooldown: int := 15
  const DefaultDailyLimit: int := 15

  datatype Manager = Manager(
    cooldownSeconds: int,
    dailyLimit: int,
    lastGeneration: map<int, int>,
    generating: map<int, bool>,
    dailyGenerations: map<int, seq<int>>
  )

  function NewManager(cooldownSeconds: int, dailyLimit: int): Manager {
    Manager(cooldownSeconds, dailyLimit, map[], map[], map[])
  }

  const Default: Manager := NewManager(DefaultCooldown, DefaultDailyLimit)

  /** How long a user at the daily limit has to wait. */
  datatype WaitHint = Tomorrow | Wait(hours: int, minutes: int)

  /** The answer of `can_generate`; every verdict but `Allowed` carries a refusal. */
  datatype Verdict = Allowed | Busy | LimitReached(hint: WaitHint) | Cooldown(seconds: int)

  function Generating(m: Manager, u: int): bool {
    if u in m.generating then m.generating[u] else false
  }

  /** The time of the user's last finished generation; 0 when there was none. */
  function LastOf(m: Manager, u: int): int {
    if u in m.lastGeneration then m.lastGeneration[u] else 0
  }

  function DailyOf(m: Manager, u: int): seq<int> {
    if u in m.dailyGenerations then m.dailyGenerations[u] else []
  }

  /** The window of a day before `now`. */
  function InWindow(now: int): int -> bool {
    t => t > now - Day
  }

  /** The generation times that lie within the last day before `now`, in their order. */
  function Recent(times: seq<int>, now: int): (r: seq<int>)
    ensures |r| <= |times|
  {
    History.Select(times, InWindow(now), true)
  }

  lemma {:induction false} RecentMember(times: seq<int>, now: int, t: int)
    ensures t in Recent(times, now) <==> t in times && t > now - Day
  {
    History.SelectMember(times, InWindow(now), true, t);
  }

  lemma {:induction false} RecentAppend(times: seq<int>, t: int, now: int)
    ensures Recent(times + [t], now) == Recent(times, now) + (if t > now - Day then [t] else [])
  {
    History.SelectAppend(times, [t], InWindow(now), true);
    History.SelectSingleton(t, InWindow(now), true);
  }

  /** Filtering at an earlier time and again at a later one is filtering at the later one. */
  lemma {:induction false} RecentLater(times: seq<int>, early: int, late: int)
    requires early <= late
    ensures Recent(Recent(times, early), late) == Recent(times, late)
  {
    if |times| > 0 {
      var k := |times| - 1;
      RecentLater(times[..k], early, late);
      var tail := if times[k] > early - Day then [times[k]] else [];
      assert Recent(times, early) == Recent(times[..k], early) + tail;
      RecentAppendAll(Recent(times[..k], early), tail, late);
    }
  }

  lemma {:induction false} RecentAppendAll(a: seq<int>, b: seq<int>, now: int)
    ensures Recent(a + b, now) == Recent(a, now) + Recent(b, now)
  {
    History.SelectAppend(a, b, InWindow(now), true);
  }

  /** Filtering twice at the same time filters nothing more. */
  lemma {:induction false} RecentIdempotent(times: seq<int>, now: int)
    ensures Recent(Recent(times, now), now) == Recent(times, now)
  {
    RecentLater(times, now, now);
  }

  function Min(xs: seq<int>): (r: int)
    requires |xs| > 0
    ensures r in xs && forall x :: x in xs ==> r <= x
  {
    if |xs| == 1 then xs[0]
    else
      var m := Min(xs[1..]);
      assert forall x :: x in xs[1..] ==> m <= x;
      assert forall x :: x in xs ==> x == xs[0] || x in xs[1..];
      if xs[0] <= m then xs[0] else m
  }

  /**
   * `_cleanup_old_generations`: the user's list keeps only the times of the
   * last day; a user without a list gets an empty one.
   */
  function Cleanup(m: Manager, u: int, now: int): (r: Manager)
    ensures r == m.(dailyGenerations := m.dailyGenerations[u := Recent(DailyOf(m, u), now)])
  {
    if u !in m.dailyGenerations then m.(dailyGenerations := m.dailyGenerations[u := []])
    else m.(dailyGenerations := m.dailyGenerations[u := Recent(m.dailyGenerations[u], now)])
  }

  /** The wait until the oldest generation of the window leaves it, in hours and minutes. */
  function HintFor(remaining: int): (h: WaitHint)
    requires remaining > 0
    ensures h.Wait? && 0 <= h.minutes < 60 && h.hours >= 0
    ensures h.hours * 3600 + h.minutes * 60 <= remaining < h.hours * 3600 + h.minutes * 60 + 60
  {
    Wait(remaining / 3600, (remaining % 3600) / 60)
  }

  /**
   * `can_generate`, with the cleanup it does on the way. A generation in
   * progress refuses first and changes nothing; then the daily limit, then
   * the cooldown.
   */
  function CanGenerate(m: Manager, u: int, now: int): (r: (Manager, Verdict))
    ensures r.1 == Busy <==> Generating(m, u)
    ensures r.1.LimitReached? <==> !Generating(m, u) && |Recent(DailyOf(m, u), now)| >= m.dailyLimit
    ensures r.1.Allowed? <==>
      && !Generating(m, u)
      && |Recent(DailyOf(m, u), now)| < m.dailyLimit
      && now - LastOf(m, u) >= m.cooldownSeconds
    ensures r.1.Cooldown? ==> r.1.seconds == m.cooldownSeconds - (now - LastOf(m, u)) > 0
    ensures r.1.LimitReached? && r.1.hint.Tomorrow? ==> Recent(DailyOf(m, u), now) == []
    ensures r.1.LimitReached? && r.1.hint.Wait? ==>
      var recent := Recent(DailyOf(m, u), now);
      && recent != []
      && Min(recent) + Day - now > 0
      && r.1.hint == HintFor(Min(recent) + Day - now)
    ensures r.0 == if Generating(m, u) then m else Cleanup(m, u, now)
  {
    if Generating(m, u) then (m, Busy)
    else
      var m1 := Cleanup(m, u, now);
      var recent := m1.dailyGenerations[u];
      if |recent| >= m.dailyLimit then
        if |recent| > 0 then
          var oldest := Min(recent);
          RecentMember(DailyOf(m, u), now, oldest);
          (m1, LimitReached(HintFor(oldest + Day - now)))
        else
          (m1, LimitReached(Tomorrow))
      else
        var elapsed := now - LastOf(m, u);
        if elapsed < m.cooldownSeconds then (m1, Cooldown(m.cooldownSeconds - elapsed))
        else (m1, Allowed)
  }

  /** `start_generation`. */
  function StartGeneration(m: Manager, u: int): (r: Manager)
    ensures Generating(r, u)
    ensures forall v :: v != u ==> Generating(r, v) == Generating(m, v)
    ensures r.lastGeneration == m.lastGeneration && r.dailyGenerations == m.dailyGenerations
  {
    m.(generating := m.generating[u := true])
  }

  /**
   * `finish_generation`: clear the flag, remember `now` as the last
   * generation, and count it in the user's window.
   */
  function FinishGeneration(m: Manager, u: int, now: int): (r: Manager)
    ensures !Generating(r, u) && LastOf(r, u) == now
    ensures DailyOf(r, u) == Recent(DailyOf(m, u), now) + [now]
    ensures forall v :: v != u ==>
      Generating(r, v) == Generating(m, v) && LastOf(r, v) == LastOf(m, v) && DailyOf(r, v) == DailyOf(m, v)
  {
    var times := DailyOf(m, u) + [now];
    RecentAppend(DailyOf(m, u), now, now);
    Manager(m.cooldownSeconds, m.dailyLimit, m.lastGeneration[u := now], m.generating[u := false],
            m.dailyGenerations[u := Recent(times, now)])
  }

  /**
   * One allowed generation, started at `t1` and finished at `t2`, leaves at
   * most `dailyLimit` generations in the user's window.
   */
  lemma {:induction false} AllowedRunStaysWithinLimit(m: Manager, u: int, t1: int, t2: int)
    requires CanGenerate(m, u, t1).1 == Allowed
    requires t1 <= t2
    ensures var after := FinishGeneration(StartGeneration(CanGenerate(m, u, t1).0, u), u, t2);
      |DailyOf(after, u)| <= m.dailyLimit
  {
    var m1 := CanGenerate(m, u, t1).0;
    assert DailyOf(m1, u) == Recent(DailyOf(m, u), t1);
    RecentLater(DailyOf(m, u), t1, t2);
  }

  /**
   * After a generation finished at `done`, every request within the
   * cooldown is refused.
   */
  lemma {:induction false} CooldownAfterFinish(m: Manager, u: int, done: int, now: int)
    requires done <= now < done + m.cooldownSeconds
    ensures CanGenerate(FinishGeneration(m, u, done), u, now).1 != Allowed
  {
  }

  /** What one user does never changes the verdict another user gets. */
  lemma {:induction false} StartIsolated(m: Manager, u: int, v: int, now: int)
    requires u != v
    ensures CanGenerate(StartGeneration(m, u), v, now).1 == CanGenerate(m, v, now).1
  {
    var a := StartGeneration(m, u);
    assert Generating(a, v) == Generating(m, v) && LastOf(a, v) == LastOf(m, v) && DailyOf(a, v) == DailyOf(m, v);
  }

  lemma {:induction false} FinishIsolated(m: Manager, u: int, v: int, t: int, now: int)
    requires u != v
    ensures CanGenerate(FinishGeneration(m, u, t), v, now).1 == CanGenerate(m, v, now).1
  {
    var a := FinishGeneration(m, u, t);
    assert Generating(a, v) == Generating(m, v) && LastOf(a, v) == LastOf(m, v) && DailyOf(a, v) == DailyOf(m, v);
  }

  lemma {:induction false} CheckIsolated(m: Manager, u: int, v: int, t: int, now: int)
    requires u != v
    ensures CanGenerate(CanGenerate(m, u, t).0, v, now).1 == CanGenerate(m, v, now).1
  {
    var a := CanGenerate(m, u, t).0;
    assert Generating(a, v) == Generating(m, v) && LastOf(a, v) == LastOf(m, v) && DailyOf(a, v) == DailyOf(m, v);
  }

  /**
   * The refusal text of a verdict, as sent to the user.
   */
  function RefusalText(limit: int, v: Verdict): (r: string)
    requires !v.Allowed?
    ensures v.Busy? ==> r == BusyText
    ensures v.LimitReached? ==> LimitPrefix(limit) <= r
    ensures v.Cooldown? ==> CooldownOpening <= r
  {
    match v
    case Busy => BusyText
    case LimitReached(hint) => LimitPrefix(limit) + LimitAdvice(hint)
    case Cooldown(s) => CooldownOpening + IntToString(s) + CooldownClosing
  }

  const BusyText: string := "Принял, генерирую — подождите…"
  const LimitOpening: string := "Достигнут лимит: "
  const LimitMiddle: string := " басен в сутки. "
  const WaitOpening: string := "Попробуйте через "
  const CooldownOpening: string := "Подождите "
  const CooldownClosing: string := " секунд перед следующей генерацией."

  function LimitPrefix(limit: int): string {
    LimitOpening + IntToString(limit) + LimitMiddle
  }

  /** When to try again, after the limit has been reached. */
  function LimitAdvice(hint: WaitHint): string {
    match hint
    case Tomorrow => "Попробуйте завтра."
    case Wait(h, m) => WaitOpening + WaitText(h, m) + "."
  }

  /**
   * The refusal carries the verdict's numbers: the cooldown text the
   * seconds left, the limit text the daily limit and, when a wait is known,
   * the wait text, each of which reads back as the number it renders.
   */
  lemma {:induction false} RefusalShowsNumbers(limit: int, v: Verdict)
    requires !v.Allowed?
    ensures var r := RefusalText(limit, v);
      && (v.Cooldown? && v.seconds >= 0 ==> NumeralAt(r, |CooldownOpening|, v.seconds))
      && (v.LimitReached? && limit >= 0 ==> NumeralAt(r, |LimitOpening|, limit))
      && (v.LimitReached? && v.hint.Wait? ==> IsSubstring(WaitText(v.hint.hours, v.hint.minutes), r))
  {
    match v
    case Busy =>
    case Cooldown(sec) =>
      if sec >= 0 {
        CooldownShowsSeconds(sec);
      }
    case LimitReached(hint) =>
      if limit >= 0 {
        LimitShowsLimit(limit, hint);
      }
      if hint.Wait? {
        LimitShowsWait(limit, hint.hours, hint.minutes);
      }
  }

  /** The cooldown refusal shows the seconds left right after its opening words. */
  lemma {:induction false} CooldownShowsSeconds(sec: nat)
    ensures NumeralAt(CooldownOpening + IntToString(sec) + CooldownClosing, |CooldownOpening|, sec)
  {
    assert CooldownClosing[0] == ' ';
    NumeralIn(CooldownOpening, sec, CooldownClosing);
  }

  /** The limit refusal shows the daily limit right after its opening words. */
  lemma {:induction false} LimitShowsLimit(limit: nat, hint: WaitHint)
    ensures NumeralAt(LimitPrefix(limit) + LimitAdvice(hint), |LimitOpening|, limit)
  {
    var d := IntToString(limit);
    var r := LimitPrefix(limit) + LimitAdvice(hint);
    var i := |LimitOpening|;
    assert r == LimitOpening + d + (LimitMiddle + LimitAdvice(hint));
    assert r[i..i + |d|] == d;
    assert r[i + |d|] == LimitMiddle[0] == ' ';
    NumeralHere(r, i, limit);
  }

  /** The limit refusal with a known wait contains the wait text. */
  lemma {:induction false} LimitShowsWait(limit: int, hours: int, minutes: int)
    ensures IsSubstring(WaitText(hours, minutes), LimitPrefix(limit) + LimitAdvice(Wait(hours, minutes)))
  {
    var w := WaitText(hours, minutes);
    var front := LimitPrefix(limit) + WaitOpening;
    var r := LimitPrefix(limit) + LimitAdvice(Wait(hours, minutes));
    assert r == front + w + ".";
    assert r[|front|..|front| + |w|] == w;
    assert OccursAt(w, r, |front|);
  }

  /** Digits of `n` at `i`, followed by a space, are the numeral of `n` there. */
  lemma {:induction false} NumeralHere(r: string, i: nat, n: nat)
    requires i + |IntToString(n)| < |r|
    requires r[i..i + |IntToString(n)|] == IntToString(n) && r[i + |IntToString(n)|] == ' '
    ensures NumeralAt(r, i, n)
  {
    IntToStringRoundTrip(n);
  }

  /** A numeral of `n` between a front and a back starting with a space stands at the front's end. */
  lemma {:induction false} NumeralIn(front: string, n: nat, back: string)
    requires |back| > 0 && back[0] == ' '
    ensures NumeralAt(front + IntToString(n) + back, |front|, n)
  {
    var d := IntToString(n);
    var r := front + d + back;
    assert r[|front|..|front| + |d|] == d;
    assert r[|front| + |d|] == back[0];
    NumeralHere(r, |front|, n);
  }

  const HoursUnit: string := " ч. "
  const MinutesUnit: string := " мин."

  /** The wait as text; the hours part appears only when there is at least an hour to wait. */
  function WaitText(hours: int, minutes: int): (r: string)
    ensures hours > 0 ==> r == IntToString(hours) + HoursUnit + IntToString(minutes) + MinutesUnit
    ensures hours <= 0 ==> r == IntToString(minutes) + MinutesUnit
  {
    var m := IntToString(minutes) + MinutesUnit;
    if hours > 0 then IntToString(hours) + HoursUnit + m else m
  }

  /**
   * The wait text reads back as the wait: the hours, when shown, open it,
   * and the minutes follow them (or open it when no hours are shown).
   */
  lemma {:induction false} WaitTextReadsBack(hours: int, minutes: int)
    requires minutes >= 0
    ensures var r := WaitText(hours, minutes);
      && (hours > 0 ==> NumeralAt(r, 0, hours) && NumeralAt(r, |IntToString(hours) + HoursUnit|, minutes))
      && (hours <= 0 ==> NumeralAt(r, 0, minutes))
  {
    assert HoursUnit[0] == ' ' && MinutesUnit[0] == ' ';
    if hours > 0 {
      TwoNumerals(hours, HoursUnit, minutes, MinutesUnit);
    } else {
      NumeralIn("", minutes, MinutesUnit);
      assert "" + IntToString(minutes) + MinutesUnit == IntToString(minutes) + MinutesUnit;
    }
  }

  /** Two numerals, each followed by a unit that starts with a space, both read back. */
  lemma {:induction false} TwoNumerals(a: nat, unitA: string, b: nat, unitB: string)
    requires |unitA| > 0 && unitA[0] == ' ' && |unitB| > 0 && unitB[0] == ' '
    ensures var r := IntToString(a) + unitA + IntToString(b) + unitB;
      NumeralAt(r, 0, a) && NumeralAt(r, |IntToString(a) + unitA|, b)
  {
    var x, y := IntToString(a), IntToString(b);
    var r := x + unitA + y + unitB;
    assert r[0..|x|] == x;
    assert r[|x|] == unitA[0];
    NumeralHere(r, 0, a);
    var i := |x| + |unitA|;
    assert r[i..i + |y|] == y;
    assert r[i + |y|] == unitB[0];
    NumeralHere(r, i, b);
  }
}

=== FILE: bot.dfy ===
/**
 * The bot's handlers and their wiring: the four-question intake dialogue,
 * /cancel, /reset, and free text that becomes a story under the antiflood
 * rules. One event of one user is handled at a time; the clock, the user's
 * Telegram name, the outcome of each database call, the router's reply and
 * the generator's output are inputs of the event.
 */
module Bot {
  import opened Wrappers
  import opened Text
  import opened Models
  import Repository
  import Antiflood
  import Cache = ProfileCache
  import SplitMessage
  import AgentRouter
  import StoryPrompt

  /** The states of the intake dialogue; a user outside it has no state. */
  datatype Phase = AskingName | AskingAge | AskingTraits | AskingSituation

  /** The answers kept between the intake questions. */
  datatype Answers = Answers(childNames: Option<string>, age: Option<string>)

  const NoAnswers: Answers := Answers(None, None)

  datatype World = World(
    store: Repository.Store,
    cache: Cache.Cache<Profile>,
    flood: Antiflood.Manager,
    dialogue: map<int, Phase>,
    answers: map<int, Answers>
  )

  /**
   * The database calls the handlers make, one per call site. Each runs in a
   * session of its own and can fail on its own: a failing read answers
   * "nothing there", a failing write is rolled back and reported.
   */
  datatype Call =
    | StartLookup     // the registration check of /start
    | ResetLookup     // the profile check of /reset
    | MessageLoad     // the profile check of free text
    | StoryLoad       // the profile load of a story request
    | ContextRefresh  // the re-read after storing a situation
    | PatchRefresh    // the re-read after applying a router patch
    | ProfileSave     // the intake's profile upsert
    | ContextSave     // the write of the situation answer
    | PatchSave       // the write of a router patch
    | StorySave       // the write of a delivered story
    | ProfileDelete   // the delete of /reset

  /**
   * What the outside world contributes to one event: the time it arrives,
   * the time a generation finishes, the sender's display name, which
   * database calls fail, the router's parsed reply for a message and a
   * profile, and the generator's story for a prompt (None when it fails).
   */
  datatype Env = Env(
    now: int,
    doneAt: int,
    displayName: string,
    fails: Call -> bool,
    route: (string, Profile) -> Option<AgentRouter.Json>,
    generate: string -> Option<string>
  )

  datatype Event = StartCmd | CancelCmd | ResetCmd | Message(text: string)

  /** The bot's fixed replies, by purpose; refusals and story parts carry their text. */
  datatype Reply =
    | WelcomeBack | Greeting | AskName | AskAge | AskTraits | AskSituation
    | ProfileSaveFailed | SituationSkipped | SituationNoted | SituationSaveFailed
    | Cancelled | NoProfileToReset | ResetDone | ResetFailed | NeedStart
    | Refused(text: string)
    | Writing | ProfileLoadFailed | PromptFailed | GenerationFailed
    | Part(text: string)

  /** What the generator is asked for: the profile in hand and the router's task. */
  datatype Request = Request(profile: Profile, task: string)

  /** The prompt sent to the generator: the task under the children's header. */
  function PromptOf(q: Request): string {
    StoryPrompt.AssemblePrompt(q.profile, q.task)
  }

  /** The router's reply for a story request and the profile after the update it asked for. */
  datatype Plan = Plan(routed: AgentRouter.Routed, profile: Profile)

  /** How a story request ended. */
  datatype StoryOutcome =
    | NoProfile
    | EmptyPrompt
    | NoStory(request: Request)
    | Delivered(request: Request, story: string, parts: seq<string>)

  const MaxMessage: nat := SplitMessage.DefaultMaxLength
  const FirstStoryTask: string := "Напиши первую басню-знакомство с ребенком."
  const NoAnswer: string := "нет"

  const SituationOpening: string := "Напиши первую басню-знакомство с ребенком, которая разбирает ситуацию: "

  function SituationTask(answer: string): string {
    SituationOpening + answer
  }

  function AnswersOf(w: World, u: int): Answers {
    if u in w.answers then w.answers[u] else NoAnswers
  }

  // ---------------------------------------------------------------- intake

  /**
   * `start_command`: a registered user is welcomed back and the dialogue
   * ends; anyone else, or anyone whose lookup fails, is greeted and asked
   * for the children's names.
   */
  function StartCommand(w: World, u: int, env: Env): (r: (seq<Reply>, Option<Phase>))
    ensures r.1.Some? <==> u !in w.store.users || env.fails(StartLookup)
    ensures r.1.Some? ==> r == ([Greeting, AskName], Some(AskingName))
    ensures r.1.None? ==> r.0 == [WelcomeBack]
  {
    if Repository.GetUser(w.store, u, env.fails(StartLookup)).Some? then ([WelcomeBack], None)
    else ([Greeting, AskName], Some(AskingName))
  }

  /** `handle_name`: keep the stripped answer and ask for the age. */
  function HandleName(w: World, u: int, text: string): (r: (World, seq<Reply>, Option<Phase>))
    ensures AnswersOf(r.0, u).childNames == Some(Strip(text))
    ensures AnswersOf(r.0, u).age == AnswersOf(w, u).age
    ensures r.0 == w.(answers := r.0.answers) && r.1 == [AskAge] && r.2 == Some(AskingAge)
  {
    var a := AnswersOf(w, u);
    (w.(answers := w.answers[u := a.(childNames := Some(Strip(text)))]), [AskAge], Some(AskingAge))
  }

  /** `handle_age`: keep the stripped answer and ask for the traits. */
  function HandleAge(w: World, u: int, text: string): (r: (World, seq<Reply>, Option<Phase>))
    ensures AnswersOf(r.0, u).age == Some(Strip(text))
    ensures AnswersOf(r.0, u).childNames == AnswersOf(w, u).childNames
    ensures r.0 == w.(answers := r.0.answers) && r.1 == [AskTraits] && r.2 == Some(AskingTraits)
  {
    var a := AnswersOf(w, u);
    (w.(answers := w.answers[u := a.(age := Some(Strip(text)))]), [AskTraits], Some(AskingTraits))
  }

  /**
   * `handle_traits`: store the profile from the three answers (a missing
   * answer counts as ''), drop the cached profile and ask about a
   * situation; a failed save ends the dialogue.
   */
  function HandleTraits(w: World, u: int, text: string, env: Env): (r: (World, seq<Reply>, Option<Phase>))
    ensures r.2.Some? <==> !env.fails(ProfileSave)
    ensures env.fails(ProfileSave) ==> r == (w, [ProfileSaveFailed], None)
    ensures !env.fails(ProfileSave) ==>
      var a := AnswersOf(w, u);
      && r.1 == [AskSituation] && r.2 == Some(AskingSituation)
      && r.0.cache == Cache.Invalidate(w.cache, u)
      && r.0.flood == w.flood && r.0.dialogue == w.dialogue && r.0.answers == w.answers
      && r.0.store.stories == w.store.stories && r.0.store.contexts == w.store.contexts
      && r.0.store.users.Keys == w.store.users.Keys + {u}
      && (forall v :: v in w.store.users && v != u ==> r.0.store.users[v] == w.store.users[v])
      && r.0.store.users[u].childNames == Some(a.childNames.GetOr(""))
      && r.0.store.users[u].age == Some(a.age.GetOr(""))
      && r.0.store.users[u].traits == Some(Strip(text))
      && r.0.store.users[u].username ==
           (if env.displayName != "" || u !in w.store.users then Some(env.displayName)
            else w.store.users[u].username)
      && r.0.store.users[u].storyTotal == (if u in w.store.users then w.store.users[u].storyTotal else 0)
      && r.0.store.users[u].contextActive ==
           (if u in w.store.users then w.store.users[u].contextActive else Some(""))
    ensures Repository.Valid(w.store) ==> Repository.Valid(r.0.store)
  {
    var a := AnswersOf(w, u);
    var t := Repository.UpsertUserProfile(w.store, u, env.displayName, a.childNames.GetOr(""), a.age.GetOr(""),
                                          Strip(text), None, env.fails(ProfileSave));
    if !t.ok then (w, [ProfileSaveFailed], None)
    else (w.(store := t.store, cache := Cache.Invalidate(w.cache, u)), [AskSituation], Some(AskingSituation))
  }

  /**
   * `handle_situation`: "нет" in any letter case leaves the active context
   * alone and the first story follows; any other answer becomes the active
   * context and the first story, about the situation, follows, unless the
   * write fails, which is reported and ends the dialogue without a story.
   */
  function HandleSituation(w: World, u: int, text: string, env: Env): (r: (World, seq<Reply>, Option<StoryOutcome>))
    ensures Lower(Strip(text)) == NoAnswer ==>
      && |r.1| >= 1 && r.1[0] == SituationSkipped && r.2.Some?
      && KeepsContexts(w.store, r.0.store)
    ensures Lower(Strip(text)) != NoAnswer && (u !in w.store.users || env.fails(ContextSave)) ==>
      r == (w, [SituationSaveFailed], None)
    ensures Lower(Strip(text)) != NoAnswer && u in w.store.users && !env.fails(ContextSave) ==>
      && |r.1| >= 1 && r.1[0] == SituationNoted && r.2.Some?
      && u in r.0.store.users && r.0.store.users[u].contextActive == Some(Strip(text))
    ensures r.0.flood == w.flood && r.0.dialogue == w.dialogue && r.0.answers == w.answers
    ensures Repository.Valid(w.store) ==> Repository.Valid(r.0.store)
  {
    var answer := Strip(text);
    if Lower(answer) == NoAnswer then
      var (w1, rs, o) := GenerateAndSend(w, u, FirstStoryTask, env);
      (w1, [SituationSkipped] + rs, Some(o))
    else
      var t := Repository.UpdateUserFields(w.store, u, map["context_active" := answer], env.fails(ContextSave));
      if !t.ok then (w, [SituationSaveFailed], None)
      else
        assert Repository.ColumnValue(t.store.users[u], "context_active") == Some(answer);
        var w1 := Refresh(w.(store := t.store), u, env.now, env.fails(ContextRefresh));
        var (w2, rs, o) := GenerateAndSend(w1, u, SituationTask(answer), env);
        (w2, [SituationNoted] + rs, Some(o))
  }

  /** Drop the cached profile and cache the freshly read one, if the read finds the user. */
  function Refresh(w: World, u: int, now: int, readFails: bool): (r: World)
    ensures r.store == w.store && r.flood == w.flood && r.dialogue == w.dialogue && r.answers == w.answers
    ensures r.cache.ttlMinutes == w.cache.ttlMinutes
    ensures u in w.store.users && !readFails ==> u in r.cache.entries && r.cache.entries[u] == (ToDict(w.store.users[u]), now)
    ensures u !in w.store.users || readFails ==> u !in r.cache.entries
    ensures forall v :: v != u ==> (v in r.cache.entries <==> v in w.cache.entries)
    ensures forall v :: v != u && v in w.cache.entries ==> r.cache.entries[v] == w.cache.entries[v]
  {
    var c := Cache.Invalidate(w.cache, u);
    match Repository.GetUser(w.store, u, readFails)
    case Some(p) => w.(cache := Cache.Set(c, u, p, now))
    case None => w.(cache := c)
  }

  /** `cancel`. */
  function CancelCommand(): (r: (seq<Reply>, Option<Phase>))
    ensures r.1.None?
  {
    ([Cancelled], None)
  }

  /**
   * `reset_command`: delete the profile with its stories and contexts,
   * forget the cached profile and the caller's intake answers. The dialogue
   * state is not touched.
   */
  function ResetCommand(w: World, u: int, env: Env): (r: (World, seq<Reply>))
    ensures u !in w.store.users || env.fails(ResetLookup) ==> r == (w, [NoProfileToReset])
    ensures u in w.store.users && !env.fails(ResetLookup) && env.fails(ProfileDelete) ==> r == (w, [ResetFailed])
    ensures u in w.store.users && !env.fails(ResetLookup) && !env.fails(ProfileDelete) ==>
      && r.1 == [ResetDone]
      && r.0.store == Repository.DeleteUserProfile(w.store, u, false).store
      && u !in r.0.store.users
      && (forall s :: s in r.0.store.stories ==> s.userId != u)
      && (forall c :: c in r.0.store.contexts ==> c.userId != u)
      && r.0.cache == Cache.Invalidate(w.cache, u)
      && r.0.answers == w.answers - {u}
    ensures r.0.dialogue == w.dialogue && r.0.flood == w.flood
    ensures Repository.Valid(w.store) ==> Repository.Valid(r.0.store)
  {
    if Repository.GetUser(w.store, u, env.fails(ResetLookup)).None? then (w, [NoProfileToReset])
    else
      var t := Repository.DeleteUserProfile(w.store, u, env.fails(ProfileDelete));
      if !t.ok then (w, [ResetFailed])
      else (w.(store := t.store, cache := Cache.Invalidate(w.cache, u), answers := w.answers - {u}), [ResetDone])
  }

  /** A reset touches nobody else: their answers, rows, stories, contexts and cached profiles stay. */
  lemma {:induction false} ResetKeepsOthers(w: World, u: int, v: int, env: Env)
    requires v != u
    ensures var r := ResetCommand(w, u, env).0;
      && AnswersOf(r, v) == AnswersOf(w, v)
      && (v in r.store.users <==> v in w.store.users)
      && (v in w.store.users ==> r.store.users[v] == w.store.users[v])
      && (forall s: Story :: s.userId == v ==> (s in r.store.stories <==> s in w.store.stories))
      && (forall c: Context :: c.userId == v ==> (c in r.store.contexts <==> c in w.store.contexts))
      && (v in r.cache.entries <==> v in w.cache.entries)
      && (v in w.cache.entries ==> r.cache.entries[v] == w.cache.entries[v])
  {
  }

  // ---------------------------------------------------------------- stories

  /** The profile from the cache while it is fresh, else from the database (and then cached). */
  function LoadProfile(w: World, u: int, now: int, readFails: bool): (r: (World, Option<Profile>))
    ensures r.0.store == w.store && r.0.flood == w.flood && r.0.dialogue == w.dialogue && r.0.answers == w.answers
    ensures r.0.cache.ttlMinutes == w.cache.ttlMinutes
    ensures r.1.Some? <==> Cache.Get(w.cache, u, now).1.Some? || (u in w.store.users && !readFails)
    ensures Cache.Get(w.cache, u, now).1.Some? ==> r == (w, Cache.Get(w.cache, u, now).1)
    ensures Cache.Get(w.cache, u, now).1.None? && u in w.store.users && !readFails ==>
      r.1 == Some(ToDict(w.store.users[u])) && u in r.0.cache.entries && r.0.cache.entries[u] == (r.1.value, now)
    ensures r.1.None? ==> u !in r.0.cache.entries
    ensures forall v :: v != u ==> (v in r.0.cache.entries <==> v in w.cache.entries)
    ensures forall v :: v != u && v in w.cache.entries ==> r.0.cache.entries[v] == w.cache.entries[v]
  {
    var (c, cached) := Cache.Get(w.cache, u, now);
    if cached.Some? then (w, cached)
    else
      match Repository.GetUser(w.store, u, readFails)
      case Some(p) => (w.(cache := Cache.Set(c, u, p, now)), Some(p))
      case None => (w.(cache := c), None)
  }

  /**
   * The profile update the router asks for: applied only when it says so
   * and the patch is non-empty; after a successful write the cache entry is
   * dropped and, when the re-read succeeds, replaced by the new row, which
   * also becomes the profile in hand.
   */
  function ApplyPatch(w: World, u: int, routed: AgentRouter.Routed, profile: Profile, env: Env): (r: (World, Profile))
    ensures r.0.flood == w.flood && r.0.dialogue == w.dialogue && r.0.answers == w.answers
    ensures r.0.cache.ttlMinutes == w.cache.ttlMinutes
    ensures !AgentRouter.Truthy(routed.shouldUpdate) || routed.patch == map[] ==> r == (w, profile)
    ensures AgentRouter.Truthy(routed.shouldUpdate) && routed.patch != map[] ==>
      r.0.store == Repository.UpdateUserFields(w.store, u, routed.patch, env.fails(PatchSave)).store
    ensures Committed(w, u, routed, env) && !env.fails(PatchRefresh) ==>
      && u in r.0.store.users && r.1 == ToDict(r.0.store.users[u])
      && u in r.0.cache.entries && r.0.cache.entries[u] == (r.1, env.now)
    ensures Committed(w, u, routed, env) && env.fails(PatchRefresh) ==>
      r.1 == profile && u !in r.0.cache.entries
    ensures !Committed(w, u, routed, env) ==> r == (w, profile)
    ensures forall v :: v != u ==> (v in r.0.cache.entries <==> v in w.cache.entries)
    ensures forall v :: v != u && v in w.cache.entries ==> r.0.cache.entries[v] == w.cache.entries[v]
    ensures "context_active" !in routed.patch ==> KeepsContexts(w.store, r.0.store)
    ensures r.0.store.stories == w.store.stories
    ensures Repository.Valid(w.store) ==> Repository.Valid(r.0.store)
  {
    if !AgentRouter.Truthy(routed.shouldUpdate) || routed.patch == map[] then (w, profile)
    else
      var t := Repository.UpdateUserFields(w.store, u, routed.patch, env.fails(PatchSave));
      if !t.ok then (w, profile)
      else
        assert "context_active" !in routed.patch ==>
          Repository.ColumnValue(t.store.users[u], "context_active") == Repository.ColumnValue(w.store.users[u], "context_active");
        var w1 := Refresh(w.(store := t.store), u, env.now, env.fails(PatchRefresh));
        var p := if u in t.store.users && !env.fails(PatchRefresh) then ToDict(t.store.users[u]) else profile;
        (w1, p)
  }

  /** The router's update is asked for and its write goes through. */
  predicate Committed(w: World, u: int, routed: AgentRouter.Routed, env: Env) {
    AgentRouter.Truthy(routed.shouldUpdate) && routed.patch != map[] && u in w.store.users && !env.fails(PatchSave)
  }

  /** The value of text column `key` as a profile dictionary shows it. */
  function ProfileColumn(p: Profile, key: string): string
    requires key in Repository.TextColumns
  {
    match key
    case "username" => p.username
    case "child_names" => p.childNames
    case "age" => p.age
    case "traits" => p.traits
    case "context_active" => p.contextActive
    case "wishes" => p.wishes
    case _ => p.feedback
  }

  /**
   * After a committed and re-read update, the profile in hand shows every
   * patched column with its new value and every other column as stored
   * before; the story counter is unchanged.
   */
  lemma {:induction false} PatchReadsBack(w: World, u: int, routed: AgentRouter.Routed, profile: Profile, env: Env)
    requires Committed(w, u, routed, env) && !env.fails(PatchRefresh)
    ensures var p := ApplyPatch(w, u, routed, profile, env).1;
      && (forall k :: k in Repository.TextColumns && k in routed.patch ==> ProfileColumn(p, k) == routed.patch[k])
      && (forall k :: k in Repository.TextColumns && k !in routed.patch ==>
            ProfileColumn(p, k) == OrEmpty(Repository.ColumnValue(w.store.users[u], k)))
      && p.telegramId == w.store.users[u].telegramId && p.storyTotal == w.store.users[u].storyTotal
  {
    var t := Repository.UpdateUserFields(w.store, u, routed.patch, false);
    var n := t.store.users[u];
    var p := ApplyPatch(w, u, routed, profile, env).1;
    assert p == ToDict(n);
    forall k | k in Repository.TextColumns
      ensures ProfileColumn(p, k) == OrEmpty(Repository.ColumnValue(n, k))
    {
    }
  }

  /**
   * The first half of a story request: load the profile and, when there is
   * one, route the message with it and apply the update the router asks for.
   */
  function Prepare(w: World, u: int, message: string, env: Env): (r: (World, Option<Plan>))
    ensures r.0.flood == w.flood && r.0.dialogue == w.dialogue && r.0.answers == w.answers
    ensures r.1.None? <==> Cache.Get(w.cache, u, env.now).1.None? && (u !in w.store.users || env.fails(StoryLoad))
    ensures r.1.Some? ==>
      var (w1, loaded) := LoadProfile(w, u, env.now, env.fails(StoryLoad));
      && loaded.Some?
      && r.1.value.routed == AgentRouter.Normalise(env.route(message, loaded.value), message)
      && r.1.value.profile == ApplyPatch(w1, u, r.1.value.routed, loaded.value, env).1
    ensures r.0.store.stories == w.store.stories
    ensures KeepsContexts(w.store, r.0.store)
    ensures Repository.Valid(w.store) ==> Repository.Valid(r.0.store)
  {
    var (w1, loaded) := LoadProfile(w, u, env.now, env.fails(StoryLoad));
    if loaded.None? then (w1, None)
    else
      var routed := AgentRouter.Normalise(env.route(message, loaded.value), message);
      AgentRouter.PatchNeverTouchesContext(env.route(message, loaded.value), message);
      var (w2, profile) := ApplyPatch(w1, u, routed, loaded.value, env);
      (w2, Some(Plan(routed, profile)))
  }

  /**
   * `generate_and_send_story`: load the profile, route the message, apply
   * the profile update, wrap the prompt in the children's header, generate,
   * save the story and send it in parts. The result of saving is not
   * looked at; the parts are sent whether or not it succeeded.
   */
  function GenerateAndSend(w: World, u: int, message: string, env: Env): (r: (World, seq<Reply>, StoryOutcome))
    ensures r.0.flood == w.flood && r.0.dialogue == w.dialogue && r.0.answers == w.answers
    ensures r.2.NoProfile? <==> Cache.Get(w.cache, u, env.now).1.None? && (u !in w.store.users || env.fails(StoryLoad))
    ensures r.2.NoStory? ==> var g := env.generate(PromptOf(r.2.request)); g.None? || g.value == ""
    ensures r.2.Delivered? ==> env.generate(PromptOf(r.2.request)) == Some(r.2.story) && r.2.story != ""
    ensures r.2.Delivered? ==> r.2.parts == SplitMessage.Split(r.2.story, MaxMessage)
    ensures r.2.Delivered? ==> forall i :: 0 <= i < |r.2.parts| ==> |r.2.parts[i]| <= MaxMessage
    ensures r.2.Delivered? ==> r.1 == [Writing] + Parts(r.2.parts)
    ensures !r.2.Delivered? ==> |r.1| >= 1 && !r.1[|r.1| - 1].Part?
    ensures !r.2.Delivered? ==> r.0.store.stories == w.store.stories
    ensures Repository.Valid(w.store) ==> Repository.Valid(r.0.store)
    ensures KeepsContexts(w.store, r.0.store)
  {
    var (w1, plan) := Prepare(w, u, message, env);
    if plan.None? then (w1, [ProfileLoadFailed], NoProfile)
    else if !AgentRouter.Truthy(plan.value.routed.prompt) then (w1, [Writing, PromptFailed], EmptyPrompt)
    else Deliver(w1, u, Request(plan.value.profile, AgentRouter.PyStr(plan.value.routed.prompt)), env)
  }

  /**
   * How a story request ends follows its plan: no plan means no profile, a
   * plan with a falsy prompt means an empty prompt, and otherwise the
   * generator is asked with the patched profile and the router's prompt as
   * text.
   */
  lemma {:induction false} OutcomeFollowsPlan(w: World, u: int, message: string, env: Env)
    ensures var plan := Prepare(w, u, message, env).1;
      var o := GenerateAndSend(w, u, message, env).2;
      && (o.NoProfile? <==> plan.None?)
      && (o.EmptyPrompt? <==> plan.Some? && !AgentRouter.Truthy(plan.value.routed.prompt))
      && (o.NoStory? || o.Delivered? ==>
            plan.Some? && o.request == Request(plan.value.profile, AgentRouter.PyStr(plan.value.routed.prompt)))
  {
  }

  /** `q` asks for the router's prompt for the message `m`, routed with some profile. */
  ghost predicate RoutedFor(q: Request, m: string, env: Env) {
    exists p: Profile :: q.task == AgentRouter.PyStr(AgentRouter.Normalise(env.route(m, p), m).prompt)
  }

  /** The router cannot be reached for the message `m`, whatever the profile. */
  ghost predicate RouterDown(env: Env, m: string) {
    forall p: Profile :: env.route(m, p).None?
  }

  /**
   * The generator is asked with what the router made of the message the
   * request was made for; with the router down, that is the fallback prompt,
   * which quotes the message.
   */
  lemma {:induction false} GenerateRoutesMessage(w: World, u: int, m: string, env: Env)
    ensures var o := GenerateAndSend(w, u, m, env).2;
      && (o.NoStory? || o.Delivered? ==> RoutedFor(o.request, m, env))
      && (o.NoStory? || o.Delivered? ==> RouterDown(env, m) ==>
            o.request.task == AgentRouter.FallbackPrompt(m) && IsSubstring(m, o.request.task))
  {
    var o := GenerateAndSend(w, u, m, env).2;
    if o.NoStory? || o.Delivered? {
      OutcomeFollowsPlan(w, u, m, env);
      var loaded := LoadProfile(w, u, env.now, env.fails(StoryLoad)).1;
      assert o.request.task == AgentRouter.PyStr(AgentRouter.Normalise(env.route(m, loaded.value), m).prompt);
      if RouterDown(env, m) {
        assert env.route(m, loaded.value).None?;
        AgentRouter.FallbackQuotesMessage(m);
      }
    }
  }

  /** The tail of a story request: generate, check the output, save it, split it. */
  function Deliver(w: World, u: int, q: Request, env: Env): (r: (World, seq<Reply>, StoryOutcome))
    ensures r.0.flood == w.flood && r.0.dialogue == w.dialogue && r.0.answers == w.answers && r.0.cache == w.cache
    ensures var g := env.generate(PromptOf(q));
      && (r.2.NoStory? <==> g.None? || g.value == "")
      && (!r.2.NoStory? ==> r.2 == Delivered(q, g.value, SplitMessage.Split(g.value, MaxMessage)))
    ensures r.2.NoStory? ==> r == (w, [Writing, GenerationFailed], NoStory(q))
    ensures r.2.Delivered? ==> r.2.request == q && env.generate(PromptOf(q)) == Some(r.2.story) && r.2.story != ""
    ensures r.2.Delivered? ==> forall i :: 0 <= i < |r.2.parts| ==> |r.2.parts[i]| <= MaxMessage
    ensures r.2.Delivered? ==> r.1 == [Writing] + Parts(r.2.parts)
    ensures r.2.Delivered? ==>
      r.0.store == Repository.SaveStory(w.store, u, r.2.story, DefaultModel, env.now, env.fails(StorySave)).store
    ensures KeepsContexts(w.store, r.0.store)
    ensures Repository.Valid(w.store) ==> Repository.Valid(r.0.store)
  {
    var story := env.generate(PromptOf(q));
    if story.None? || story.value == "" then (w, [Writing, GenerationFailed], NoStory(q))
    else
      var saved := Repository.SaveStory(w.store, u, story.value, DefaultModel, env.now, env.fails(StorySave));
      var parts := SplitMessage.Split(story.value, MaxMessage);
      (w.(store := saved.store), [Writing] + Parts(parts), Delivered(q, story.value, parts))
  }

  /**
   * The parts sent are the ones `split_message` as written produces for
   * every story holding a character other than a line break; the two differ
   * only on a long story made of line breaks alone.
   */
  lemma {:induction false} PartsAsWritten(w: World, u: int, q: Request, env: Env)
    requires Deliver(w, u, q, env).2.Delivered?
    requires var s := Deliver(w, u, q, env).2.story; exists j :: 0 <= j < |s| && s[j] != '\n'
    ensures var o := Deliver(w, u, q, env).2; o.parts == SplitMessage.SplitAsWritten(o.story, MaxMessage)
  {
    var o := Deliver(w, u, q, env).2;
    SplitMessage.SplitAgreesUnlessOnlyBreaks(o.story, MaxMessage);
  }

  /** Every user still exists with the same active context. */
  ghost predicate KeepsContexts(before: Repository.Store, after: Repository.Store) {
    forall v :: v in before.users ==> v in after.users && after.users[v].contextActive == before.users[v].contextActive
  }

  function Parts(texts: seq<string>): (r: seq<Reply>)
    ensures |r| == |texts|
    ensures forall i :: 0 <= i < |r| ==> r[i] == Part(texts[i])
  {
    seq(|texts|, i requires 0 <= i < |texts| => Part(texts[i]))
  }

  /**
   * `handle_message`: a user without a profile is sent to /start; a
   * refusal of the antiflood manager is passed on; otherwise the
   * generation is marked as running, the story is produced, and the
   * generation is marked finished at `doneAt` whatever happened.
   */
  function HandleMessage(w: World, u: int, text: string, env: Env): (r: (World, seq<Reply>, Option<StoryOutcome>))
    ensures r.0.dialogue == w.dialogue && r.0.answers == w.answers
    ensures Repository.Valid(w.store) ==> Repository.Valid(r.0.store)
    ensures r.2.None? ==> r.0.store == w.store && |r.1| == 1 && (r.1[0] == NeedStart || r.1[0].Refused?)
  {
    var (w1, loaded) := LoadProfile(w, u, env.now, env.fails(MessageLoad));
    if loaded.None? then (w1, [NeedStart], None)
    else
      var (flood, verdict) := Antiflood.CanGenerate(w1.flood, u, env.now);
      if !verdict.Allowed? then
        (w1.(flood := flood), [Refused(Antiflood.RefusalText(w1.flood.dailyLimit, verdict))], None)
      else
        var w2 := w1.(flood := Antiflood.StartGeneration(flood, u));
        var (w3, rs, o) := GenerateAndSend(w2, u, Strip(text), env);
        (w3.(flood := Antiflood.FinishGeneration(w3.flood, u, env.doneAt)), rs, Some(o))
  }

  // ---------------------------------------------------------------- dispatch

  /** The dialogue state after a handler returns a state, or ends the dialogue. */
  function Enter(dialogue: map<int, Phase>, u: int, next: Option<Phase>): map<int, Phase> {
    if next.Some? then dialogue[u := next.value] else dialogue - {u}
  }

  /**
   * One update of one user, routed as the application registers its
   * handlers: /reset first, then the intake dialogue (entered only by
   * /start, left by /cancel or by its last answer), then free text. A
   * command nothing accepts is dropped.
   */
  function Step(w: World, u: int, e: Event, env: Env): (r: (World, seq<Reply>))
    ensures Repository.Valid(w.store) ==> Repository.Valid(r.0.store)
  {
    match e
    case ResetCmd => ResetCommand(w, u, env)
    case StartCmd =>
      if u in w.dialogue then (w, [])
      else
        var (rs, next) := StartCommand(w, u, env);
        (w.(dialogue := Enter(w.dialogue, u, next)), rs)
    case CancelCmd =>
      if u in w.dialogue then
        var (rs, next) := CancelCommand();
        (w.(dialogue := Enter(w.dialogue, u, next)), rs)
      else (w, [])
    case Message(t) =>
      if u !in w.dialogue then
        var (w1, rs, _) := HandleMessage(w, u, t, env);
        (w1, rs)
      else
        match w.dialogue[u]
        case AskingName =>
          var (w1, rs, next) := HandleName(w, u, t);
          (w1.(dialogue := Enter(w.dialogue, u, next)), rs)
        case AskingAge =>
          var (w1, rs, next) := HandleAge(w, u, t);
          (w1.(dialogue := Enter(w.dialogue, u, next)), rs)
        case AskingTraits =>
          var (w1, rs, next) := HandleTraits(w, u, t, env);
          (w1.(dialogue := Enter(w.dialogue, u, next)), rs)
        case AskingSituation =>
          var (w1, rs, _) := HandleSituation(w, u, t, env);
          (w1.(dialogue := w.dialogue - {u}), rs)
  }

  // ---------------------------------------------------------------- properties

  /** No generation is marked as running. */
  ghost predicate Idle(w: World) {
    forall v :: !Antiflood.Generating(w.flood, v)
  }

  /**
   * Handling one event at a time, every generation that is started is also
   * finished, so no user is ever left marked as generating.
   */
  lemma {:induction false} StepKeepsIdle(w: World, u: int, e: Event, env: Env)
    requires Idle(w)
    ensures Idle(Step(w, u, e, env).0)
  {
    if e.Message? && u !in w.dialogue {
      MessageKeepsIdle(w, u, e.text, env);
    } else {
      OnlyStoryRequestsTouchFlood(w, u, e, env);
    }
  }

  lemma {:induction false} MessageKeepsIdle(w: World, u: int, t: string, env: Env)
    requires Idle(w)
    ensures Idle(HandleMessage(w, u, t, env).0)
  {
    var (w1, loaded) := LoadProfile(w, u, env.now, env.fails(MessageLoad));
    if loaded.Some? {
      var (flood, verdict) := Antiflood.CanGenerate(w1.flood, u, env.now);
      IdleRun(w1.flood, u, env.now, env.doneAt);
      if verdict.Allowed? {
        var w2 := w1.(flood := Antiflood.StartGeneration(flood, u));
        assert GenerateAndSend(w2, u, Strip(t), env).0.flood == w2.flood;
      }
    }
  }

  /** A check, and a generation it allows, leave no generation marked as running. */
  lemma {:induction false} IdleRun(m: Antiflood.Manager, u: int, now: int, done: int)
    requires forall v :: !Antiflood.Generating(m, v)
    ensures var m1 := Antiflood.CanGenerate(m, u, now).0;
      && (forall v :: !Antiflood.Generating(m1, v))
      && (forall v :: !Antiflood.Generating(Antiflood.FinishGeneration(Antiflood.StartGeneration(m1, u), u, done), v))
  {
    var m1 := Antiflood.CanGenerate(m, u, now).0;
    assert forall v :: Antiflood.Generating(m1, v) == Antiflood.Generating(m, v);
  }

  /** In an idle world the "already generating" refusal never occurs. */
  lemma {:induction false} IdleNeverBusy(w: World, u: int, now: int)
    requires Idle(w)
    ensures Antiflood.CanGenerate(w.flood, u, now).1 != Antiflood.Busy
  {
  }

  /**
   * Free text from a user outside the dialogue produces a story only with
   * the antiflood manager's consent: on a refusal nothing is stored and no
   * story part is sent.
   */
  lemma {:induction false} RefusalStoresNothing(w: World, u: int, t: string, env: Env)
    requires u !in w.dialogue
    requires !Antiflood.CanGenerate(w.flood, u, env.now).1.Allowed?
    ensures var r := Step(w, u, Message(t), env);
      && r.0.store == w.store
      && forall i :: 0 <= i < |r.1| ==> !r.1[i].Part?
  {
  }

  /**
   * Without a profile, or when the lookup fails, free text is answered by
   * sending the user to /start and nothing else happens.
   */
  lemma {:induction false} NoProfileNoStory(w: World, u: int, t: string, env: Env)
    requires u !in w.dialogue && (u !in w.store.users || env.fails(MessageLoad))
    requires Cache.Get(w.cache, u, env.now).1.None?
    ensures var r := Step(w, u, Message(t), env);
      r.0.store == w.store && r.0.flood == w.flood && r.1 == [NeedStart]
  {
  }

  /**
   * The dialogue ends after the situation answer whatever it is, and a
   * /cancel at any question ends it without touching the stored profile.
   */
  lemma {:induction false} DialogueEnds(w: World, u: int, e: Event, env: Env)
    requires u in w.dialogue
    requires e == CancelCmd || (e.Message? && w.dialogue[u] == AskingSituation)
    ensures u !in Step(w, u, e, env).0.dialogue
    ensures e == CancelCmd ==> Step(w, u, e, env).0.store == w.store
  {
  }

  /** Only a story request touches the antiflood state; the dialogue and the commands do not. */
  lemma {:induction false} OnlyStoryRequestsTouchFlood(w: World, u: int, e: Event, env: Env)
    requires !(e.Message? && u !in w.dialogue)
    ensures Step(w, u, e, env).0.flood == w.flood
  {
  }

  /**
   * An allowed story request counts against the user's limits: the
   * generation is recorded as finished at `doneAt`, whatever its outcome.
   */
  lemma {:induction false} AllowedRequestIsRecorded(w: World, u: int, t: string, env: Env)
    requires u !in w.dialogue && u in w.store.users && !env.fails(MessageLoad)
    requires Antiflood.CanGenerate(w.flood, u, env.now).1.Allowed?
    ensures var f := Step(w, u, Message(t), env).0.flood;
      && Antiflood.LastOf(f, u) == env.doneAt
      && !Antiflood.Generating(f, u)
      && Antiflood.DailyOf(f, u)[|Antiflood.DailyOf(f, u)| - 1] == env.doneAt
  {
  }

  /** Every user's active context survives a story request: routing cannot write it and saving does not. */
  lemma {:induction false} GenerateKeepsContexts(w: World, u: int, message: string, env: Env)
    ensures KeepsContexts(w.store, GenerateAndSend(w, u, message, env).0.store)
  {
  }

  /** Answering "нет" to the situation question leaves the stored active context as it was. */
  lemma {:induction false} NoKeepsContext(w: World, u: int, t: string, env: Env)
    requires u in w.dialogue && w.dialogue[u] == AskingSituation
    requires Lower(Strip(t)) == NoAnswer
    requires u in w.store.users
    ensures var r := Step(w, u, Message(t), env).0;
      u in r.store.users && r.store.users[u].contextActive == w.store.users[u].contextActive
  {
  }

  /** Any other answer becomes the active context when its write succeeds. */
  lemma {:induction false} AnswerBecomesContext(w: World, u: int, t: string, env: Env)
    requires u in w.dialogue && w.dialogue[u] == AskingSituation
    requires Lower(Strip(t)) != NoAnswer
    requires u in w.store.users && !env.fails(ContextSave)
    ensures var r := Step(w, u, Message(t), env).0;
      u in r.store.users && r.store.users[u].contextActive == Some(Strip(t))
  {
  }

  /**
   * A stored situation answer reaches the first story's prompt: the profile
   * the generator is asked with carries it as the active context, so the
   * situation block is part of the prompt whenever the children have names
   * and the answer is not blank.
   */
  lemma {:induction false} SituationReachesPrompt(w: World, u: int, t: string, env: Env)
    requires Lower(Strip(t)) != NoAnswer
    requires u in w.store.users && !env.fails(ContextSave) && !env.fails(ContextRefresh)
    requires w.cache.ttlMinutes >= 0
    ensures var o := HandleSituation(w, u, t, env).2;
      && o.Some? && !o.value.NoProfile?
      && (o.value.NoStory? || o.value.Delivered? ==>
            var p := o.value.request.profile;
            && p.contextActive == Strip(t)
            && PromptOf(o.value.request) == StoryPrompt.AssemblePrompt(p, o.value.request.task)
            && (Strip(p.childNames) != "" && Strip(t) != "" ==>
                  StoryPrompt.Situation(Strip(t)) in
                    StoryPrompt.Sections(Strip(p.childNames), Strip(p.age), Strip(p.traits), Strip(p.contextActive),
                                         o.value.request.task)))
  {
    var answer := Strip(t);
    var st := Repository.UpdateUserFields(w.store, u, map["context_active" := answer], false);
    assert Repository.ColumnValue(st.store.users[u], "context_active") == Some(answer);
    var row := st.store.users[u];
    var w1 := Refresh(w.(store := st.store), u, env.now, false);
    assert Cache.Get(w1.cache, u, env.now).1 == Some(ToDict(row));
    var (w2, loaded) := LoadProfile(w1, u, env.now, env.fails(StoryLoad));
    assert loaded == Some(ToDict(row));
    var message := SituationTask(answer);
    var routed := AgentRouter.Normalise(env.route(message, loaded.value), message);
    AgentRouter.PatchNeverTouchesContext(env.route(message, loaded.value), message);
    var (w3, p) := ApplyPatch(w2, u, routed, loaded.value, env);
    assert p.contextActive == answer;
    var o := HandleSituation(w, u, t, env).2;
    if o.value.NoStory? || o.value.Delivered? {
      assert o.value.request.profile == p;
      StripIdempotent(t);
      if Strip(p.childNames) != "" {
        StoryPrompt.SituationShown(p, o.value.request.task);
      }
    }
  }

  /**
   * Free text is routed as the user's stripped message: the story is asked
   * for what the router made of it, and with the router down the prompt
   * quotes it.
   */
  lemma {:induction false} MessageAsksForText(w: World, u: int, t: string, env: Env)
    ensures var o := HandleMessage(w, u, t, env).2;
      && (o.Some? && (o.value.NoStory? || o.value.Delivered?) ==> RoutedFor(o.value.request, Strip(t), env))
      && (o.Some? && (o.value.NoStory? || o.value.Delivered?) && RouterDown(env, Strip(t)) ==>
            IsSubstring(Strip(t), o.value.request.task))
  {
    var (w1, loaded) := LoadProfile(w, u, env.now, env.fails(MessageLoad));
    if loaded.Some? {
      var (flood, verdict) := Antiflood.CanGenerate(w1.flood, u, env.now);
      if verdict.Allowed? {
        var w2 := w1.(flood := Antiflood.StartGeneration(flood, u));
        GenerateRoutesMessage(w2, u, Strip(t), env);
      }
    }
  }

  /**
   * The first story is routed as the fixed first-story task after "нет",
   * and otherwise as the situation task quoting the stripped answer, which
   * the prompt then quotes when the router is down.
   */
  lemma {:induction false} SituationAsksForAnswer(w: World, u: int, t: string, env: Env)
    ensures var o := HandleSituation(w, u, t, env).2;
      var m := if Lower(Strip(t)) == NoAnswer then FirstStoryTask else SituationTask(Strip(t));
      && (o.Some? && (o.value.NoStory? || o.value.Delivered?) ==> RoutedFor(o.value.request, m, env))
      && (o.Some? && (o.value.NoStory? || o.value.Delivered?) && Lower(Strip(t)) != NoAnswer && RouterDown(env, m) ==>
            IsSubstring(Strip(t), o.value.request.task))
  {
    if Lower(Strip(t)) == NoAnswer {
      SkippedAsksFirstStory(w, u, t, env);
    } else {
      AnswerAsksForSituation(w, u, t, env);
    }
  }

  lemma {:induction false} SkippedAsksFirstStory(w: World, u: int, t: string, env: Env)
    requires Lower(Strip(t)) == NoAnswer
    ensures var o := HandleSituation(w, u, t, env).2;
      o.Some? && (o.value.NoStory? || o.value.Delivered?) ==> RoutedFor(o.value.request, FirstStoryTask, env)
  {
    GenerateRoutesMessage(w, u, FirstStoryTask, env);
  }

  lemma {:induction false} AnswerAsksForSituation(w: World, u: int, t: string, env: Env)
    requires Lower(Strip(t)) != NoAnswer
    ensures var o := HandleSituation(w, u, t, env).2;
      var m := SituationTask(Strip(t));
      && (o.Some? && (o.value.NoStory? || o.value.Delivered?) ==> RoutedFor(o.value.request, m, env))
      && (o.Some? && (o.value.NoStory? || o.value.Delivered?) && RouterDown(env, m) ==>
            IsSubstring(Strip(t), o.value.request.task))
  {
    var answer := Strip(t);
    var m := SituationTask(answer);
    var st := Repository.UpdateUserFields(w.store, u, map["context_active" := answer], env.fails(ContextSave));
    if st.ok {
      var w1 := Refresh(w.(store := st.store), u, env.now, env.fails(ContextRefresh));
      GenerateRoutesMessage(w1, u, m, env);
      var o := GenerateAndSend(w1, u, m, env).2;
      if (o.NoStory? || o.Delivered?) && RouterDown(env, m) {
        SuffixQuoted(AgentRouter.FallbackOpening, SituationOpening, answer);
      }
    }
  }

  /** A text ending in `s` holds `s`. */
  lemma {:induction false} SuffixQuoted(a: string, b: string, s: string)
    ensures IsSubstring(s, a + (b + s))
  {
    var hay := a + (b + s);
    assert hay[|a| + |b|..] == s;
    assert OccursAt(s, hay, |a| + |b|);
  }

  // ---------------------------------------------------------------- the cache

  /** Two projections that differ at most in the story counter. */
  predicate SameButTotal(a: Profile, b: Profile) {
    a.(storyTotal := 0) == b.(storyTotal := 0)
  }

  /**
   * Every cached profile belongs to a stored user and shows that user's row
   * as stored, except possibly the story counter (saving a story does not
   * refresh the cache).
   */
  ghost predicate CacheCoherent(w: World) {
    forall v :: v in w.cache.entries ==>
      v in w.store.users && SameButTotal(w.cache.entries[v].0, ToDict(w.store.users[v]))
  }

  /**
   * A coherent cache hands out the stored profile, up to the story counter;
   * a profile is found for every stored user unless the read fails, and
   * never for anyone else.
   */
  lemma {:induction false} LoadedProfileIsStored(w: World, u: int, now: int, readFails: bool)
    requires CacheCoherent(w)
    ensures var (w1, loaded) := LoadProfile(w, u, now, readFails);
      && CacheCoherent(w1)
      && (loaded.Some? ==> u in w.store.users && SameButTotal(loaded.value, ToDict(w.store.users[u])))
      && (u in w.store.users && !readFails ==> loaded.Some?)
  {
  }

  lemma {:induction false} RefreshCoherent(w: World, u: int, now: int, readFails: bool)
    requires forall v :: v in w.cache.entries && v != u ==>
      v in w.store.users && SameButTotal(w.cache.entries[v].0, ToDict(w.store.users[v]))
    ensures CacheCoherent(Refresh(w, u, now, readFails))
  {
  }

  /** A new row for `u` whose other rows are unchanged keeps every other cached profile accurate. */
  lemma {:induction false} OthersStayCoherent(w: World, u: int, st: Repository.Store)
    requires CacheCoherent(w)
    requires forall v :: v in w.store.users && v != u ==> v in st.users && st.users[v] == w.store.users[v]
    ensures forall v :: v in w.cache.entries && v != u ==>
      v in st.users && SameButTotal(w.cache.entries[v].0, ToDict(st.users[v]))
  {
  }

  lemma {:induction false} ApplyPatchCoherent(w: World, u: int, routed: AgentRouter.Routed, profile: Profile, env: Env)
    requires CacheCoherent(w)
    ensures CacheCoherent(ApplyPatch(w, u, routed, profile, env).0)
  {
    if Committed(w, u, routed, env) {
      var t := Repository.UpdateUserFields(w.store, u, routed.patch, false);
      OthersStayCoherent(w, u, t.store);
      RefreshCoherent(w.(store := t.store), u, env.now, env.fails(PatchRefresh));
    }
  }

  lemma {:induction false} DeliverCoherent(w: World, u: int, q: Request, env: Env)
    requires CacheCoherent(w)
    ensures CacheCoherent(Deliver(w, u, q, env).0)
  {
    var r := Deliver(w, u, q, env).0;
    if r.store != w.store {
      var o := w.store.users[u];
      assert ToDict(o.(storyTotal := o.storyTotal + 1)).(storyTotal := 0) == ToDict(o).(storyTotal := 0);
    }
  }

  lemma {:induction false} PrepareCoherent(w: World, u: int, message: string, env: Env)
    requires CacheCoherent(w)
    ensures CacheCoherent(Prepare(w, u, message, env).0)
  {
    var (w1, loaded) := LoadProfile(w, u, env.now, env.fails(StoryLoad));
    LoadedProfileIsStored(w, u, env.now, env.fails(StoryLoad));
    if loaded.Some? {
      var routed := AgentRouter.Normalise(env.route(message, loaded.value), message);
      ApplyPatchCoherent(w1, u, routed, loaded.value, env);
    }
  }

  lemma {:induction false} GenerateCoherent(w: World, u: int, message: string, env: Env)
    requires CacheCoherent(w)
    ensures CacheCoherent(GenerateAndSend(w, u, message, env).0)
  {
    PrepareCoherent(w, u, message, env);
    var (w1, plan) := Prepare(w, u, message, env);
    if plan.Some? && AgentRouter.Truthy(plan.value.routed.prompt) {
      DeliverCoherent(w1, u, Request(plan.value.profile, AgentRouter.PyStr(plan.value.routed.prompt)), env);
    }
  }

  lemma {:induction false} MessageCoherent(w: World, u: int, t: string, env: Env)
    requires CacheCoherent(w)
    ensures CacheCoherent(HandleMessage(w, u, t, env).0)
  {
    var (w1, loaded) := LoadProfile(w, u, env.now, env.fails(MessageLoad));
    LoadedProfileIsStored(w, u, env.now, env.fails(MessageLoad));
    if loaded.Some? {
      var (flood, verdict) := Antiflood.CanGenerate(w1.flood, u, env.now);
      if verdict.Allowed? {
        GenerateCoherent(w1.(flood := Antiflood.StartGeneration(flood, u)), u, Strip(t), env);
      }
    }
  }

  lemma {:induction false} SituationCoherent(w: World, u: int, t: string, env: Env)
    requires CacheCoherent(w)
    ensures CacheCoherent(HandleSituation(w, u, t, env).0)
  {
    var answer := Strip(t);
    if Lower(answer) == NoAnswer {
      GenerateCoherent(w, u, FirstStoryTask, env);
    } else {
      var st := Repository.UpdateUserFields(w.store, u, map["context_active" := answer], env.fails(ContextSave));
      if st.ok {
        OthersStayCoherent(w, u, st.store);
        RefreshCoherent(w.(store := st.store), u, env.now, env.fails(ContextRefresh));
        GenerateCoherent(Refresh(w.(store := st.store), u, env.now, env.fails(ContextRefresh)), u, SituationTask(answer), env);
      }
    }
  }

  lemma {:induction false} ResetCoherent(w: World, u: int, env: Env)
    requires CacheCoherent(w)
    ensures CacheCoherent(ResetCommand(w, u, env).0)
  {
    var t := Repository.DeleteUserProfile(w.store, u, env.fails(ProfileDelete));
    if u in w.store.users && t.ok {
      OthersStayCoherent(w, u, t.store);
    }
  }

  lemma {:induction false} TraitsCoherent(w: World, u: int, text: string, env: Env)
    requires CacheCoherent(w)
    ensures CacheCoherent(HandleTraits(w, u, text, env).0)
  {
    var a := AnswersOf(w, u);
    var t := Repository.UpsertUserProfile(w.store, u, env.displayName, a.childNames.GetOr(""), a.age.GetOr(""),
                                          Strip(text), None, env.fails(ProfileSave));
    if t.ok {
      OthersStayCoherent(w, u, t.store);
    }
  }

  /** Every handler leaves the cache coherent with the database. */
  lemma {:induction false} StepKeepsCacheCoherent(w: World, u: int, e: Event, env: Env)
    requires CacheCoherent(w)
    ensures CacheCoherent(Step(w, u, e, env).0)
  {
    var r := Step(w, u, e, env).0;
    match e
    case ResetCmd =>
      ResetCoherent(w, u, env);
    case StartCmd =>
      CoherentByStoreAndCache(w, r);
    case CancelCmd =>
      CoherentByStoreAndCache(w, r);
    case Message(text) =>
      if u !in w.dialogue {
        MessageCoherent(w, u, text, env);
        CoherentByStoreAndCache(HandleMessage(w, u, text, env).0, r);
      } else if w.dialogue[u] == AskingTraits {
        TraitsCoherent(w, u, text, env);
        CoherentByStoreAndCache(HandleTraits(w, u, text, env).0, r);
      } else if w.dialogue[u] == AskingSituation {
        SituationCoherent(w, u, text, env);
        CoherentByStoreAndCache(HandleSituation(w, u, text, env).0, r);
      } else {
        CoherentByStoreAndCache(w, r);
      }
  }

  /** Coherence looks only at the store and the cache. */
  lemma {:induction false} CoherentByStoreAndCache(a: World, b: World)
    requires CacheCoherent(a) && b.store == a.store && b.cache == a.cache
    ensures CacheCoherent(b)
  {
  }

  /**
   * With a coherent cache, a delivered story was written for a stored user
   * and, unless its save fails, counted in that user's story total.
   */
  lemma {:induction false} DeliveredStoryIsCounted(w: World, u: int, message: string, env: Env)
    requires CacheCoherent(w) && !env.fails(StorySave)
    requires GenerateAndSend(w, u, message, env).2.Delivered?
    ensures u in w.store.users
    ensures var r := GenerateAndSend(w, u, message, env).0;
      u in r.store.users && r.store.users[u].storyTotal == w.store.users[u].storyTotal + 1
  {
    PrepareKeepsTotal(w, u, message, env);
    var (w1, plan) := Prepare(w, u, message, env);
    assert plan.Some? && AgentRouter.Truthy(plan.value.routed.prompt);
  }

  /** Preparing a story request finds a profile only for a stored user, and leaves the user's story total alone. */
  lemma {:induction false} PrepareKeepsTotal(w: World, u: int, message: string, env: Env)
    requires CacheCoherent(w)
    ensures var (w1, plan) := Prepare(w, u, message, env);
      plan.Some? ==> u in w.store.users && u in w1.store.users && w1.store.users[u].storyTotal == w.store.users[u].storyTotal
  {
    var (w1, loaded) := LoadProfile(w, u, env.now, env.fails(StoryLoad));
    LoadedProfileIsStored(w, u, env.now, env.fails(StoryLoad));
    if loaded.Some? {
      var routed := AgentRouter.Normalise(env.route(message, loaded.value), message);
      var (w2, profile) := ApplyPatch(w1, u, routed, loaded.value, env);
      assert u in w2.store.users && w2.store.users[u].storyTotal == w.store.users[u].storyTotal;
    }
  }
}

=== FILE: history.dfy ===
/**
 * Bounded-history helpers over a table held as a sequence of rows in
 * insertion order. A "group" is the set of rows a query filters on (one
 * user's stories, or one user's contexts of one kind) and `stamp` is the
 * creation time the query orders by.
 *
 * The database orders by creation time only; rows with equal times come
 * back in an unspecified order. Here ties are broken by position, which is
 * insertion order (and therefore id order): among equal times the earlier
 * row counts as older. The properties about trimming are stated in terms of
 * creation time alone and hold whatever the tie-break.
 */
module History {

  /** The rows whose membership in the group is `want`, in their original order. */
  function Select<R>(rows: seq<R>, inGroup: R -> bool, want: bool): (r: seq<R>)
    ensures |r| <= |rows|
  {
    if |rows| == 0 then []
    else
      var last := rows[|rows| - 1];
      Select(rows[..|rows| - 1], inGroup, want) + (if inGroup(last) == want then [last] else [])
  }

  function Last<R>(rows: seq<R>): R
    requires |rows| > 0
  {
    rows[|rows| - 1]
  }

  /** `rows` lists newest first. */
  ghost predicate NewestFirst<R>(rows: seq<R>, stamp: R -> int) {
    forall a, b :: 0 <= a < b < |rows| ==> stamp(rows[b]) <= stamp(rows[a])
  }

  /** No row of the group left out of `kept` is newer than a row of the group in `kept`. */
  ghost predicate KeepsNewest<R>(kept: seq<R>, rows: seq<R>, inGroup: R -> bool, stamp: R -> int) {
    forall k, d :: k in kept && inGroup(k) && d in rows && inGroup(d) && d !in kept ==> stamp(d) <= stamp(k)
  }

  /** Number of rows in the group. */
  function Count<R>(rows: seq<R>, inGroup: R -> bool): nat {
    |Select(rows, inGroup, true)|
  }

  /** A row is selected exactly when it is in the table and its membership is `want`. */
  lemma {:induction false} SelectMember<R>(rows: seq<R>, inGroup: R -> bool, want: bool, x: R)
    ensures x in Select(rows, inGroup, want) <==> x in rows && inGroup(x) == want
  {
    if |rows| > 0 {
      var k := |rows| - 1;
      assert rows == rows[..k] + [rows[k]];
      SelectMember(rows[..k], inGroup, want, x);
    }
  }

  /** The group is empty exactly when no row of the table is in it. */
  lemma {:induction false} CountZero<R>(rows: seq<R>, inGroup: R -> bool)
    ensures Count(rows, inGroup) == 0 <==> forall j :: 0 <= j < |rows| ==> !inGroup(rows[j])
  {
    if Count(rows, inGroup) == 0 {
      forall j | 0 <= j < |rows| ensures !inGroup(rows[j]) {
        SelectMember(rows, inGroup, true, rows[j]);
      }
    } else {
      var x := Select(rows, inGroup, true)[0];
      SelectMember(rows, inGroup, true, x);
    }
  }

  lemma {:induction false} SelectAppend<R>(a: seq<R>, b: seq<R>, inGroup: R -> bool, want: bool)
    ensures Select(a + b, inGroup, want) == Select(a, inGroup, want) + Select(b, inGroup, want)
    decreases |b|
  {
    if |b| == 0 {
      assert a + b == a;
    } else {
      var b' := b[..|b| - 1];
      assert (a + b)[..|a + b| - 1] == a + b';
      SelectAppend(a, b', inGroup, want);
    }
  }

  /**
   * Selecting the rows outside one group and then the rows of a second group
   * disjoint from it is selecting the second group directly.
   */
  lemma {:induction false} SelectOutside<R>(rows: seq<R>, inGroup: R -> bool, other: R -> bool)
    requires forall x :: other(x) ==> !inGroup(x)
    ensures Select(Select(rows, inGroup, false), other, true) == Select(rows, other, true)
  {
    if |rows| > 0 {
      var k := |rows| - 1;
      SelectOutside(rows[..k], inGroup, other);
      var outside := Select(rows[..k], inGroup, false);
      SelectAppend(outside, if inGroup(rows[k]) then [] else [rows[k]], other, true);
      SelectSingleton(rows[k], other, true);
    }
  }

  /** Nothing of the group is left among the rows selected as outside it. */
  lemma {:induction false} CountOutsideIsZero<R>(rows: seq<R>, inGroup: R -> bool)
    ensures Count(Select(rows, inGroup, false), inGroup) == 0
  {
    var outside := Select(rows, inGroup, false);
    CountZero(outside, inGroup);
    forall j | 0 <= j < |outside| ensures !inGroup(outside[j]) {
      SelectMember(rows, inGroup, false, outside[j]);
    }
  }

  /** Appending one row adds one to its group's count and nothing to any other. */
  lemma {:induction false} CountAppend<R>(rows: seq<R>, x: R, inGroup: R -> bool)
    ensures Count(rows + [x], inGroup) == Count(rows, inGroup) + (if inGroup(x) then 1 else 0)
  {
    assert (rows + [x])[..|rows|] == rows;
  }

  /** Selection only drops rows: it never takes a row more often than the table holds it. */
  lemma {:induction false} SelectSub<R>(rows: seq<R>, inGroup: R -> bool, want: bool)
    ensures multiset(Select(rows, inGroup, want)) <= multiset(rows)
  {
    if |rows| > 0 {
      var k := |rows| - 1;
      var front := rows[..k];
      SelectSub(front, inGroup, want);
      assert rows == front + [rows[k]];
      assert multiset(rows) == multiset(front) + multiset{rows[k]};
      assert Select(rows, inGroup, want) == Select(front, inGroup, want) + (if inGroup(rows[k]) == want then [rows[k]] else []);
    }
  }

  /**
   * Rows are told apart by their key: no two rows share a key, and no row
   * is held twice.
   */
  ghost predicate Unique<R>(rows: seq<R>, key: R -> int) {
    && (forall x, y :: x in rows && y in rows && key(x) == key(y) ==> x == y)
    && (forall x :: x in rows ==> multiset(rows)[x] <= 1)
  }

  /** Dropping rows keeps the keys apart. */
  lemma {:induction false} UniqueSub<R>(r: seq<R>, rows: seq<R>, key: R -> int)
    requires Unique(rows, key) && multiset(r) <= multiset(rows)
    ensures Unique(r, key)
  {
    forall x | x in r ensures x in rows {
      assert x in multiset(r);
    }
    forall x | x in r ensures multiset(r)[x] <= 1 {
      assert multiset(r)[x] <= multiset(rows)[x];
    }
  }

  /** Adding a row with a key no row has keeps the keys apart. */
  lemma {:induction false} UniqueAppend<R>(rows: seq<R>, x: R, key: R -> int)
    requires Unique(rows, key)
    requires forall y :: y in rows ==> key(y) != key(x)
    ensures Unique(rows + [x], key)
  {
    assert x !in rows;
    assert multiset(rows)[x] == 0;
    forall y | y in rows + [x] ensures multiset(rows + [x])[y] <= 1 {
      assert multiset(rows + [x]) == multiset(rows) + multiset{x};
    }
  }

  function RemoveAt<R>(rows: seq<R>, i: nat): (r: seq<R>)
    requires i < |rows|
    ensures |r| == |rows| - 1
    ensures forall j :: 0 <= j < i ==> r[j] == rows[j]
    ensures forall j :: i <= j < |r| ==> r[j] == rows[j + 1]
  {
    rows[..i] + rows[i + 1..]
  }

  /** Removing the row at `i` takes exactly one copy of it out of the table. */
  lemma {:induction false} RemoveAtMultiset<R>(rows: seq<R>, i: nat)
    requires i < |rows|
    ensures multiset(RemoveAt(rows, i)) + multiset{rows[i]} == multiset(rows)
  {
    assert rows == rows[..i] + [rows[i]] + rows[i + 1..];
  }

  lemma {:induction false} RemoveAtMember<R>(rows: seq<R>, i: nat, x: R)
    requires i < |rows|
    ensures x in RemoveAt(rows, i) ==> x in rows
    ensures x in rows && x != rows[i] ==> x in RemoveAt(rows, i)
  {
    var r := RemoveAt(rows, i);
    if x in r {
      var j :| 0 <= j < |r| && r[j] == x;
      if j < i { assert rows[j] == x; } else { assert rows[j + 1] == x; }
    }
    if x in rows && x != rows[i] {
      var j :| 0 <= j < |rows| && rows[j] == x;
      if j < i { assert r[j] == x; } else { assert r[j - 1] == x; }
    }
  }

  /** Removing a group row removes one row from the group and leaves the rest of the table as it was. */
  lemma {:induction false} SelectSingleton<R>(x: R, inGroup: R -> bool, want: bool)
    ensures Select([x], inGroup, want) == if inGroup(x) == want then [x] else []
  {
    assert [x][..0] == [];
  }

  /** Selecting from a table with one row cut out is selecting around that row. */
  lemma {:induction false} SelectAround<R>(rows: seq<R>, i: nat, inGroup: R -> bool, want: bool)
    requires i < |rows|
    ensures Select(rows, inGroup, want)
      == Select(rows[..i], inGroup, want) + Select([rows[i]], inGroup, want) + Select(rows[i + 1..], inGroup, want)
    ensures Select(RemoveAt(rows, i), inGroup, want)
      == Select(rows[..i], inGroup, want) + Select(rows[i + 1..], inGroup, want)
  {
    var a, m, b := rows[..i], [rows[i]], rows[i + 1..];
    assert rows == (a + m) + b;
    SelectAppend(a + m, b, inGroup, want);
    SelectAppend(a, m, inGroup, want);
    assert RemoveAt(rows, i) == a + b;
    SelectAppend(a, b, inGroup, want);
  }

  /** Removing a row of the group leaves one fewer in it. */
  lemma {:induction false} RemoveAtCount<R>(rows: seq<R>, i: nat, inGroup: R -> bool)
    requires i < |rows| && inGroup(rows[i])
    ensures Count(RemoveAt(rows, i), inGroup) == Count(rows, inGroup) - 1
  {
    SelectAround(rows, i, inGroup, true);
    SelectSingleton(rows[i], inGroup, true);
  }

  lemma {:induction false} RemoveAtSelect<R>(rows: seq<R>, i: nat, inGroup: R -> bool)
    requires i < |rows| && inGroup(rows[i])
    ensures Count(RemoveAt(rows, i), inGroup) == Count(rows, inGroup) - 1
    ensures Select(RemoveAt(rows, i), inGroup, false) == Select(rows, inGroup, false)
  {
    RemoveAtCount(rows, i, inGroup);
    RemoveAtOutside(rows, i, inGroup);
  }

  /** Removing a row of the group leaves the rows outside it as they were. */
  lemma {:induction false} RemoveAtOutside<R>(rows: seq<R>, i: nat, inGroup: R -> bool)
    requires i < |rows| && inGroup(rows[i])
    ensures Select(RemoveAt(rows, i), inGroup, false) == Select(rows, inGroup, false)
  {
    SelectAround(rows, i, inGroup, false);
    SelectSingleton(rows[i], inGroup, false);
  }

  /**
   * Index of the oldest row of the group: least stamp, and among equal
   * stamps the earliest position.
   */
  function OldestIndex<R>(rows: seq<R>, inGroup: R -> bool, stamp: R -> int): (i: nat)
    requires Count(rows, inGroup) > 0
    ensures i < |rows| && inGroup(rows[i])
    ensures forall j :: 0 <= j < |rows| && inGroup(rows[j]) ==> stamp(rows[i]) <= stamp(rows[j])
    ensures forall j :: 0 <= j < i && inGroup(rows[j]) ==> stamp(rows[i]) < stamp(rows[j])
  {
    var k := |rows| - 1;
    CountZero(rows, inGroup);
    CountZero(rows[..k], inGroup);
    if Count(rows[..k], inGroup) == 0 then
      assert forall j :: 0 <= j < k ==> rows[..k][j] == rows[j];
      k
    else
      var i := OldestIndex(rows[..k], inGroup, stamp);
      if inGroup(rows[k]) && stamp(rows[k]) < stamp(rows[i]) then k else i
  }

  /**
   * Index of the newest row of the group: greatest stamp, and among equal
   * stamps the latest position.
   */
  function NewestIndex<R>(rows: seq<R>, inGroup: R -> bool, stamp: R -> int): (i: nat)
    requires Count(rows, inGroup) > 0
    ensures i < |rows| && inGroup(rows[i])
    ensures forall j :: 0 <= j < |rows| && inGroup(rows[j]) ==> stamp(rows[j]) <= stamp(rows[i])
    ensures forall j :: i < j < |rows| && inGroup(rows[j]) ==> stamp(rows[j]) < stamp(rows[i])
  {
    var k := |rows| - 1;
    CountZero(rows, inGroup);
    CountZero(rows[..k], inGroup);
    if Count(rows[..k], inGroup) == 0 then
      assert forall j :: 0 <= j < k ==> rows[..k][j] == rows[j];
      k
    else
      var i := NewestIndex(rows[..k], inGroup, stamp);
      if inGroup(rows[k]) && stamp(rows[k]) >= stamp(rows[i]) then k else i
  }

  /**
   * Keep only the `limit` newest rows of the group: while the group is too
   * large, delete its oldest row. Rows outside the group are never touched.
   */
  function Trim<R>(rows: seq<R>, inGroup: R -> bool, stamp: R -> int, limit: nat): (r: seq<R>)
    ensures Count(r, inGroup) == if Count(rows, inGroup) <= limit then Count(rows, inGroup) else limit
    ensures Select(r, inGroup, false) == Select(rows, inGroup, false)
    ensures multiset(r) <= multiset(rows)
    decreases Count(rows, inGroup)
  {
    if Count(rows, inGroup) <= limit then rows
    else
      var i := OldestIndex(rows, inGroup, stamp);
      RemoveAtSelect(rows, i, inGroup);
      RemoveAtMultiset(rows, i);
      Trim(RemoveAt(rows, i), inGroup, stamp, limit)
  }

  /**
   * Trimming only deletes, and never deletes a row newer than one it keeps:
   * every kept row of the group is at least as new as every deleted one.
   */
  lemma {:induction false} TrimKeepsNewest<R>(rows: seq<R>, inGroup: R -> bool, stamp: R -> int, limit: nat)
    ensures forall x :: x in Trim(rows, inGroup, stamp, limit) ==> x in rows
    ensures KeepsNewest(Trim(rows, inGroup, stamp, limit), rows, inGroup, stamp)
    decreases Count(rows, inGroup)
  {
    if Count(rows, inGroup) > limit {
      var i := OldestIndex(rows, inGroup, stamp);
      RemoveAtSelect(rows, i, inGroup);
      TrimKeepsNewest(RemoveAt(rows, i), inGroup, stamp, limit);
      TrimStep(rows, inGroup, stamp, i, Trim(RemoveAt(rows, i), inGroup, stamp, limit));
    }
  }

  /** Deleting the oldest row first keeps "every kept row is at least as new as every deleted one". */
  lemma {:induction false} TrimStep<R>(rows: seq<R>, inGroup: R -> bool, stamp: R -> int, i: nat, r: seq<R>)
    requires i < |rows| && inGroup(rows[i])
    requires forall j :: 0 <= j < |rows| && inGroup(rows[j]) ==> stamp(rows[i]) <= stamp(rows[j])
    requires forall x :: x in r ==> x in RemoveAt(rows, i)
    requires KeepsNewest(r, RemoveAt(rows, i), inGroup, stamp)
    ensures forall x :: x in r ==> x in rows
    ensures KeepsNewest(r, rows, inGroup, stamp)
  {
    forall x | x in r ensures x in rows {
      RemoveAtMember(rows, i, x);
    }
    forall k, d | k in r && inGroup(k) && d in rows && inGroup(d) && d !in r
      ensures stamp(d) <= stamp(k)
    {
      RemoveAtMember(rows, i, k);
      RemoveAtMember(rows, i, d);
      if d == rows[i] {
        var j :| 0 <= j < |rows| && rows[j] == k;
      }
    }
  }

  /** Trimming a group already within the limit changes nothing. */
  lemma {:induction false} TrimWithinLimit<R>(rows: seq<R>, inGroup: R -> bool, stamp: R -> int, limit: nat)
    requires Count(rows, inGroup) <= limit
    ensures Trim(rows, inGroup, stamp, limit) == rows
  {
  }

  /**
   * When the group has two or more rows and the last row of the table is its
   * newest, the oldest row is not that last row.
   */
  lemma {:induction false} OldestIsNotLatest<R>(rows: seq<R>, inGroup: R -> bool, stamp: R -> int)
    requires Count(rows, inGroup) >= 2
    requires LatestIsNewest(rows, inGroup, stamp)
    ensures OldestIndex(rows, inGroup, stamp) < |rows| - 1
  {
    var k := |rows| - 1;
    assert Count(rows[..k], inGroup) > 0 by {
      assert Select(rows, inGroup, true) == Select(rows[..k], inGroup, true) + [rows[k]];
    }
    var j := OldestIndex(rows[..k], inGroup, stamp);
    assert rows[..k][j] == rows[j];
    assert inGroup(rows[j]);
    assert stamp(rows[j]) <= stamp(rows[k]);
    assert OldestIndex(rows, inGroup, stamp) == j;
  }

  /**
   * A row that was added last and is at least as new as every other row of
   * its group survives any trim that keeps at least one row.
   */
  lemma {:induction false} TrimKeepsLatest<R>(rows: seq<R>, inGroup: R -> bool, stamp: R -> int, limit: nat)
    requires |rows| > 0 && limit >= 1
    requires LatestIsNewest(rows, inGroup, stamp)
    ensures |Trim(rows, inGroup, stamp, limit)| > 0
    ensures Last(Trim(rows, inGroup, stamp, limit)) == Last(rows)
    decreases Count(rows, inGroup)
  {
    if Count(rows, inGroup) > limit {
      var i := OldestIndex(rows, inGroup, stamp);
      RemoveAtSelect(rows, i, inGroup);
      OldestIsNotLatest(rows, inGroup, stamp);
      RemoveKeepsLatest(rows, inGroup, stamp, i);
      TrimKeepsLatest(RemoveAt(rows, i), inGroup, stamp, limit);
    }
  }

  /** The last row is in the group and at least as new as every row of the group. */
  ghost predicate LatestIsNewest<R>(rows: seq<R>, inGroup: R -> bool, stamp: R -> int) {
    && |rows| > 0
    && inGroup(Last(rows))
    && forall j :: 0 <= j < |rows| && inGroup(rows[j]) ==> stamp(rows[j]) <= stamp(Last(rows))
  }

  lemma {:induction false} RemoveKeepsLatest<R>(rows: seq<R>, inGroup: R -> bool, stamp: R -> int, i: nat)
    requires LatestIsNewest(rows, inGroup, stamp)
    requires i < |rows| - 1
    ensures Last(RemoveAt(rows, i)) == Last(rows)
    ensures LatestIsNewest(RemoveAt(rows, i), inGroup, stamp)
  {
    var rest := RemoveAt(rows, i);
    assert rest[|rest| - 1] == rows[|rows| - 1];
    forall j | 0 <= j < |rest| && inGroup(rest[j])
      ensures stamp(rest[j]) <= stamp(Last(rest))
    {
      if j < i { assert rest[j] == rows[j]; } else { assert rest[j] == rows[j + 1]; }
    }
  }

  /**
   * The `k` newest rows of the group, newest first (ties: the later row
   * first), as an `ORDER BY created_at DESC LIMIT k` query returns them.
   */
  function TakeNewest<R>(rows: seq<R>, inGroup: R -> bool, stamp: R -> int, k: nat): seq<R>
    decreases k
  {
    if k == 0 || Count(rows, inGroup) == 0 then []
    else
      var i := NewestIndex(rows, inGroup, stamp);
      [rows[i]] + TakeNewest(RemoveAt(rows, i), inGroup, stamp, k - 1)
  }

  /** The newest-first query returns min(n, k) rows, n being the size of the group. */
  lemma {:induction false} TakeNewestLength<R>(rows: seq<R>, inGroup: R -> bool, stamp: R -> int, k: nat)
    ensures |TakeNewest(rows, inGroup, stamp, k)| == if Count(rows, inGroup) <= k then Count(rows, inGroup) else k
    decreases k
  {
    if k > 0 && Count(rows, inGroup) > 0 {
      var i := NewestIndex(rows, inGroup, stamp);
      RemoveAtCount(rows, i, inGroup);
      TakeNewestLength(RemoveAt(rows, i), inGroup, stamp, k - 1);
    }
  }

  /** The newest-first query never returns a row more often than the table holds it. */
  lemma {:induction false} TakeNewestSub<R>(rows: seq<R>, inGroup: R -> bool, stamp: R -> int, k: nat)
    ensures SubOf(TakeNewest(rows, inGroup, stamp, k), rows)
    decreases k
  {
    if k > 0 && Count(rows, inGroup) > 0 {
      var i := NewestIndex(rows, inGroup, stamp);
      var rest := RemoveAt(rows, i);
      TakeNewestSub(rest, inGroup, stamp, k - 1);
      SubStep(rows, i, TakeNewest(rest, inGroup, stamp, k - 1));
      TakeNewestUnfold(rows, inGroup, stamp, k);
    }
  }

  /** Every row is held in `r` at most as often as in `rows`. */
  ghost predicate SubOf<R>(r: seq<R>, rows: seq<R>) {
    multiset(r) <= multiset(rows)
  }

  /** A row in front of rows taken from the others is taken from the table. */
  lemma {:induction false} SubStep<R>(rows: seq<R>, i: nat, tail: seq<R>)
    requires i < |rows| && SubOf(tail, RemoveAt(rows, i))
    ensures SubOf([rows[i]] + tail, rows)
  {
    RemoveAtMultiset(rows, i);
    assert multiset([rows[i]] + tail) == multiset(tail) + multiset{rows[i]};
  }

  /** One step of the newest-first query: the newest row, then the query over the others. */
  lemma {:induction false} TakeNewestUnfold<R>(rows: seq<R>, inGroup: R -> bool, stamp: R -> int, k: nat)
    requires k > 0 && Count(rows, inGroup) > 0
    ensures var i := NewestIndex(rows, inGroup, stamp);
      TakeNewest(rows, inGroup, stamp, k) == [rows[i]] + TakeNewest(RemoveAt(rows, i), inGroup, stamp, k - 1)
  {
  }

  /** The newest-first query returns rows of the group taken from the table. */
  lemma {:induction false} TakeNewestMembers<R>(rows: seq<R>, inGroup: R -> bool, stamp: R -> int, k: nat)
    ensures forall x :: x in TakeNewest(rows, inGroup, stamp, k) ==> x in rows && inGroup(x)
    decreases k
  {
    if k > 0 && Count(rows, inGroup) > 0 {
      var i := NewestIndex(rows, inGroup, stamp);
      var rest := RemoveAt(rows, i);
      TakeNewestMembers(rest, inGroup, stamp, k - 1);
      forall x | x in TakeNewest(rows, inGroup, stamp, k) ensures x in rows && inGroup(x) {
        RemoveAtMember(rows, i, x);
      }
    }
  }

  /** The newest-first query returns its rows newest first. */
  lemma {:induction false} TakeNewestSorted<R>(rows: seq<R>, inGroup: R -> bool, stamp: R -> int, k: nat)
    ensures NewestFirst(TakeNewest(rows, inGroup, stamp, k), stamp)
    decreases k
  {
    if k > 0 && Count(rows, inGroup) > 0 {
      var i := NewestIndex(rows, inGroup, stamp);
      TakeNewestSorted(RemoveAt(rows, i), inGroup, stamp, k - 1);
      SortedFromRest(rows, inGroup, stamp, k);
    }
  }

  /** The newest row in front of the newest-first answer for the others is still newest first. */
  lemma {:induction false} SortedFromRest<R>(rows: seq<R>, inGroup: R -> bool, stamp: R -> int, k: nat)
    requires k > 0 && Count(rows, inGroup) > 0
    requires var rest := RemoveAt(rows, NewestIndex(rows, inGroup, stamp));
      NewestFirst(TakeNewest(rest, inGroup, stamp, k - 1), stamp)
    ensures NewestFirst(TakeNewest(rows, inGroup, stamp, k), stamp)
  {
    var i := NewestIndex(rows, inGroup, stamp);
    var rest := RemoveAt(rows, i);
    var tail := TakeNewest(rest, inGroup, stamp, k - 1);
    TakeNewestMembers(rest, inGroup, stamp, k - 1);
    SortedStep(rows, inGroup, stamp, i, tail);
    TakeNewestUnfold(rows, inGroup, stamp, k);
  }

  /** Putting the newest row of the group in front of a newest-first run of other group rows keeps it newest first. */
  lemma {:induction false} SortedStep<R>(rows: seq<R>, inGroup: R -> bool, stamp: R -> int, i: nat, tail: seq<R>)
    requires i < |rows| && inGroup(rows[i])
    requires forall j :: 0 <= j < |rows| && inGroup(rows[j]) ==> stamp(rows[j]) <= stamp(rows[i])
    requires forall x :: x in tail ==> x in RemoveAt(rows, i) && inGroup(x)
    requires NewestFirst(tail, stamp)
    ensures NewestFirst([rows[i]] + tail, stamp)
  {
    var r := [rows[i]] + tail;
    forall a, b | 0 <= a < b < |r| ensures stamp(r[b]) <= stamp(r[a]) {
      assert r[b] == tail[b - 1] && r[b] in tail;
      if a == 0 {
        RemoveAtMember(rows, i, r[b]);
        var j :| 0 <= j < |rows| && rows[j] == r[b];
      } else {
        assert r[a] == tail[a - 1];
      }
    }
  }

  /** No row of the group that the newest-first query leaves out is newer than one it returns. */
  lemma {:induction false} TakeNewestTop<R>(rows: seq<R>, inGroup: R -> bool, stamp: R -> int, k: nat)
    ensures KeepsNewest(TakeNewest(rows, inGroup, stamp, k), rows, inGroup, stamp)
    decreases k
  {
    if k > 0 && Count(rows, inGroup) > 0 {
      var i := NewestIndex(rows, inGroup, stamp);
      var rest := RemoveAt(rows, i);
      TakeNewestTop(rest, inGroup, stamp, k - 1);
      TopFromRest(rows, inGroup, stamp, k);
    }
  }

  /** The newest row followed by the newest of the others keeps the newest of all. */
  lemma {:induction false} TopFromRest<R>(rows: seq<R>, inGroup: R -> bool, stamp: R -> int, k: nat)
    requires k > 0 && Count(rows, inGroup) > 0
    requires var rest := RemoveAt(rows, NewestIndex(rows, inGroup, stamp));
      KeepsNewest(TakeNewest(rest, inGroup, stamp, k - 1), rest, inGroup, stamp)
    ensures KeepsNewest(TakeNewest(rows, inGroup, stamp, k), rows, inGroup, stamp)
  {
    var i := NewestIndex(rows, inGroup, stamp);
    var rest := RemoveAt(rows, i);
    var tail := TakeNewest(rest, inGroup, stamp, k - 1);
    TakeNewestMembers(rest, inGroup, stamp, k - 1);
    TopStep(rows, inGroup, stamp, i, tail);
    TakeNewestUnfold(rows, inGroup, stamp, k);
  }

  /** Putting the newest row in front of an answer that keeps the newest of the others keeps the newest of all. */
  lemma {:induction false} TopStep<R>(rows: seq<R>, inGroup: R -> bool, stamp: R -> int, i: nat, tail: seq<R>)
    requires i < |rows| && inGroup(rows[i])
    requires forall j :: 0 <= j < |rows| && inGroup(rows[j]) ==> stamp(rows[j]) <= stamp(rows[i])
    requires forall x :: x in tail ==> x in RemoveAt(rows, i)
    requires KeepsNewest(tail, RemoveAt(rows, i), inGroup, stamp)
    ensures KeepsNewest([rows[i]] + tail, rows, inGroup, stamp)
  {
    var r := [rows[i]] + tail;
    forall x, d | x in r && inGroup(x) && d in rows && inGroup(d) && d !in r ensures stamp(d) <= stamp(x) {
      var j :| 0 <= j < |rows| && rows[j] == d;
      if x != rows[i] {
        RemoveAtMember(rows, i, d);
        assert x in tail;
      }
    }
  }
}

=== FILE: models.dfy ===
/**
 * The three persisted tables of the bot (users, stories, contexts) and the
 * dictionary projection of a user row that the rest of the bot reads.
 */
module Models {
  import opened Wrappers
  import Text

  /**
   * A row of `users`. Nullable text columns are `Option<string>`;
   * `story_total` is NOT NULL. The creation and update timestamps are not
   * modelled.
   */
  datatype User = User(
    telegramId: int,
    username: Option<string>,
    childNames: Option<string>,
    age: Option<string>,
    traits: Option<string>,
    contextActive: Option<string>,
    wishes: Option<string>,
    feedback: Option<string>,
    storyTotal: int
  )

  /** A row of `stories`; `userId` references `users.telegram_id` with ON DELETE CASCADE. */
  datatype Story = Story(id: nat, userId: int, text: string, model: string, createdAt: int)

  /** A row of `contexts`; `kind` is "active" or "archived", as the column comment at src/db/models.py:75 says. */
  datatype Context = Context(id: nat, userId: int, kind: string, content: string, createdAt: int)

  const ActiveKind: string := "active"
  const ArchivedKind: string := "archived"

  /** Column default of `stories.model`. */
  const DefaultModel: string := "deepseek"

  /** The dictionary `User.to_dict()` returns, without its two timestamp strings. */
  datatype Profile = Profile(
    userId: string,
    telegramId: int,
    username: string,
    childNames: string,
    age: string,
    traits: string,
    contextActive: string,
    wishes: string,
    feedback: string,
    storyTotal: int
  )

  /** Python's `value or ''` on a nullable text column. */
  function OrEmpty(v: Option<string>): (r: string)
    ensures v.None? ==> r == ""
    ensures v.Some? ==> r == v.value
  {
    v.GetOr("")
  }

  /**
   * `User.to_dict()`: the id twice (once as its decimal string), every
   * nullable text column with NULL read as the empty string, and the story
   * counter copied.
   */
  function ToDict(u: User): (p: Profile)
    ensures p.telegramId == u.telegramId
    ensures p.userId == Text.IntToString(u.telegramId)
    ensures p.storyTotal == u.storyTotal
    ensures p.username == OrEmpty(u.username) && p.childNames == OrEmpty(u.childNames)
    ensures p.age == OrEmpty(u.age) && p.traits == OrEmpty(u.traits)
    ensures p.contextActive == OrEmpty(u.contextActive)
    ensures p.wishes == OrEmpty(u.wishes) && p.feedback == OrEmpty(u.feedback)
  {
    Profile(
      Text.IntToString(u.telegramId), u.telegramId,
      OrEmpty(u.username), OrEmpty(u.childNames), OrEmpty(u.age), OrEmpty(u.traits),
      OrEmpty(u.contextActive), OrEmpty(u.wishes), OrEmpty(u.feedback),
      u.storyTotal)
  }

  /** Two nullable columns that read the same once NULL is shown as ''. */
  predicate SameUpToNull(a: Option<string>, b: Option<string>) {
    OrEmpty(a) == OrEmpty(b)
  }

  /**
   * `to_dict` forgets exactly the difference between NULL and '' in the text
   * columns: two users have the same projection if and only if they agree on
   * the id and the counter and agree on every text column up to NULL-vs-''.
   * The `user_id` string carries no information beyond `telegram_id`.
   */
  lemma {:induction false} ToDictForgetsOnlyNulls(a: User, b: User)
    ensures ToDict(a) == ToDict(b) <==>
      && a.telegramId == b.telegramId
      && a.storyTotal == b.storyTotal
      && SameUpToNull(a.username, b.username)
      && SameUpToNull(a.childNames, b.childNames)
      && SameUpToNull(a.age, b.age)
      && SameUpToNull(a.traits, b.traits)
      && SameUpToNull(a.contextActive, b.contextActive)
      && SameUpToNull(a.wishes, b.wishes)
      && SameUpToNull(a.feedback, b.feedback)
  {
    if ToDict(a) == ToDict(b) {
      Text.IntToStringInjective(a.telegramId, b.telegramId);
    }
  }

  /** The user id string of a projection reads back as the numeric id. */
  lemma {:induction false} UserIdIsDecimalId(u: User)
    ensures var s := ToDict(u).userId;
      && |s| >= 1
      && (s[0] == '-' ==> Text.AllDigits(s[1..]))
      && (s[0] != '-' ==> Text.AllDigits(s))
      && Text.ParseInt(s) == u.telegramId
  {
    Text.IntToStringRoundTrip(u.telegramId);
  }
}

=== FILE: profile_cache.dfy ===
/**
 * The profile cache of the bot: one entry per user, stamped when stored,
 * that reads as absent (and is dropped) once it is older than the TTL.
 * Time is a parameter in whole seconds.
 */
module ProfileCache {
  import opened Wrappers

  const DefaultTtlMinutes: int := 5

  datatype Cache<P> = Cache(ttlMinutes: int, entries: map<int, (P, int)>)

  function NewCache<P>(ttlMinutes: int): Cache<P> {
    Cache(ttlMinutes, map[])
  }

  /** An entry stored at `cachedAt` has expired when more than the TTL has passed since. */
  predicate Expired(ttlMinutes: int, cachedAt: int, now: int) {
    now - cachedAt > ttlMinutes * 60
  }

  /**
   * `get`: the stored profile while it is fresh; an expired entry is
   * removed and reads as absent.
   */
  function Get<P>(c: Cache<P>, u: int, now: int): (r: (Cache<P>, Option<P>))
    ensures r.1.Some? <==> u in c.entries && !Expired(c.ttlMinutes, c.entries[u].1, now)
    ensures r.1.Some? ==> r.1.value == c.entries[u].0 && r.0 == c
    ensures r.1.None? ==> r.0 == c.(entries := c.entries - {u})
  {
    if u !in c.entries then (c, None)
    else
      var (p, cachedAt) := c.entries[u];
      if Expired(c.ttlMinutes, cachedAt, now) then (c.(entries := c.entries - {u}), None)
      else (c, Some(p))
  }

  /** `set`: store the profile, stamped `now`. */
  function Set<P>(c: Cache<P>, u: int, p: P, now: int): (r: Cache<P>)
    ensures r.ttlMinutes == c.ttlMinutes
    ensures u in r.entries && r.entries[u] == (p, now)
    ensures forall v :: v != u ==> (v in r.entries <==> v in c.entries)
    ensures forall v :: v != u && v in c.entries ==> r.entries[v] == c.entries[v]
  {
    c.(entries := c.entries[u := (p, now)])
  }

  /** `invalidate`: forget the user's entry; a user without one is left alone. */
  function Invalidate<P>(c: Cache<P>, u: int): (r: Cache<P>)
    ensures u !in r.entries
    ensures u !in c.entries ==> r == c
    ensures forall v :: v != u ==> (v in r.entries <==> v in c.entries)
    ensures forall v :: v != u && v in c.entries ==> r.entries[v] == c.entries[v]
  {
    if u in c.entries then c.(entries := c.entries - {u}) else c
  }

  /** A profile just stored is read back as long as the TTL has not run out. */
  lemma {:induction false} GetAfterSet<P>(c: Cache<P>, u: int, p: P, stored: int, now: int)
    requires now - stored <= c.ttlMinutes * 60
    ensures Get(Set(c, u, p, stored), u, now).1 == Some(p)
  {
  }

  /** Once the TTL has run out the profile reads as absent, and stays absent. */
  lemma {:induction false} GetAfterExpiry<P>(c: Cache<P>, u: int, p: P, stored: int, now: int, later: int)
    requires now - stored > c.ttlMinutes * 60
    ensures Get(Set(c, u, p, stored), u, now).1 == None
    ensures Get(Get(Set(c, u, p, stored), u, now).0, u, later).1 == None
  {
  }

  /** After an invalidation nothing is read until the next `set`. */
  lemma {:induction false} GetAfterInvalidate<P>(c: Cache<P>, u: int, now: int)
    ensures Get(Invalidate(c, u), u, now).1 == None
  {
  }

  /** Reading never changes what a later read at the same or a later time returns. */
  lemma {:induction false} GetIsStable<P>(c: Cache<P>, u: int, v: int, now: int, later: int)
    requires now <= later
    ensures Get(Get(c, u, now).0, v, later).1 == Get(c, v, later).1
  {
  }
}

=== FILE: repository.dfy ===
/**
 * The repository functions of the bot over an in-memory store. Each write is
 * one transaction: it either commits completely (`ok`) or rolls back and
 * leaves the store exactly as it was. Whether the database raises during the
 * transaction is not visible to the model; it enters as the `fails` input.
 */
module Repository {
  import opened Wrappers
  import opened Models
  import History

  /** Stories kept per user by `save_story`. */
  const StoryKeep: nat := 5
  /** Archived contexts kept per user by `add_context`. */
  const ArchivedKeep: nat := 5

  /**
   * Users by `telegram_id`; stories and contexts in insertion order, which
   * is also the order of their auto-incremented ids.
   */
  datatype Store = Store(
    users: map<int, User>,
    stories: seq<Story>,
    contexts: seq<Context>,
    nextStoryId: nat,
    nextContextId: nat
  )

  const EmptyStore: Store := Store(map[], [], [], 1, 1)

  /** Outcome of a write transaction: committed or not, and the store afterwards. */
  datatype Txn = Txn(ok: bool, store: Store)

  function StoryOf(u: int): Story -> bool {
    (s: Story) => s.userId == u
  }

  function ContextOf(u: int): Context -> bool {
    (c: Context) => c.userId == u
  }

  function ContextOfKind(u: int, kind: string): Context -> bool {
    (c: Context) => c.userId == u && c.kind == kind
  }

  function StoryTime(): Story -> int {
    (s: Story) => s.createdAt
  }

  function ContextTime(): Context -> int {
    (c: Context) => c.createdAt
  }

  function StoryId(): Story -> int {
    (s: Story) => s.id
  }

  function ContextId(): Context -> int {
    (c: Context) => c.id
  }

  function StoryCount(st: Store, u: int): nat {
    History.Count(st.stories, StoryOf(u))
  }

  function ContextCount(st: Store, u: int, kind: string): nat {
    History.Count(st.contexts, ContextOfKind(u, kind))
  }

  /**
   * The store's integrity: users are keyed by their own id, every story and
   * context belongs to an existing user (the foreign keys), no user has
   * more than five stories or five archived contexts, and story and context
   * ids are primary keys handed out by their sequences: each row has its
   * own id, below the next one to be handed out.
   */
  ghost predicate Valid(st: Store) {
    && (forall u :: u in st.users ==> st.users[u].telegramId == u)
    && (forall s :: s in st.stories ==> s.userId in st.users)
    && (forall c :: c in st.contexts ==> c.userId in st.users)
    && (forall u :: StoryCount(st, u) <= StoryKeep)
    && (forall u :: ContextCount(st, u, ArchivedKind) <= ArchivedKeep)
    && (forall s :: s in st.stories ==> s.id < st.nextStoryId)
    && (forall c :: c in st.contexts ==> c.id < st.nextContextId)
    && History.Unique(st.stories, StoryId())
    && History.Unique(st.contexts, ContextId())
  }

  lemma {:induction false} EmptyStoreValid()
    ensures Valid(EmptyStore)
  {
  }

  /**
   * `get_user`: the user's dictionary, or None when there is no such user
   * or when the query raises (`fails`).
   */
  function GetUser(st: Store, u: int, fails: bool): (r: Option<Profile>)
    ensures r.Some? <==> u in st.users && !fails
    ensures r.Some? ==> r.value == ToDict(st.users[u])
  {
    if fails then None
    else if u in st.users then Some(ToDict(st.users[u])) else None
  }

  // ---------------------------------------------------------------- users

  /**
   * `upsert_user_profile`. An existing user gets the new names, age and
   * traits; the username only when the new one is non-empty; the active
   * context only when one is given; the story counter is left alone. A new
   * user starts with a zero counter and an empty (not NULL) active context
   * when none is given.
   */
  function UpsertUserProfile(
    st: Store, u: int, username: string, childNames: string, age: string, traits: string,
    contextActive: Option<string>, fails: bool): (r: Txn)
    ensures fails ==> r == Txn(false, st)
    ensures !fails ==> r.ok && u in r.store.users
    ensures !fails ==>
      var n := r.store.users[u];
      && n.telegramId == u
      && n.childNames == Some(childNames) && n.age == Some(age) && n.traits == Some(traits)
    ensures !fails && u in st.users ==>
      var o, n := st.users[u], r.store.users[u];
      && n.username == (if username != "" then Some(username) else o.username)
      && n.contextActive == (if contextActive.Some? then contextActive else o.contextActive)
      && n.storyTotal == o.storyTotal
      && n.wishes == o.wishes && n.feedback == o.feedback
    ensures !fails && u !in st.users ==>
      var n := r.store.users[u];
      && n.username == Some(username)
      && n.contextActive == Some(contextActive.GetOr(""))
      && n.storyTotal == 0
      && n.wishes.None? && n.feedback.None?
    ensures r.store.users.Keys == st.users.Keys + (if fails then {} else {u})
    ensures forall v :: v in st.users && v != u ==> r.store.users[v] == st.users[v]
    ensures r.store.stories == st.stories && r.store.contexts == st.contexts
    ensures Valid(st) ==> Valid(r.store)
  {
    if fails then Txn(false, st)
    else if u in st.users then
      var o := st.users[u];
      var n := o.(
        telegramId := u,
        username := if username != "" then Some(username) else o.username,
        childNames := Some(childNames), age := Some(age), traits := Some(traits),
        contextActive := if contextActive.Some? then contextActive else o.contextActive);
      PutUserValid(st, u, n);
      Txn(true, st.(users := st.users[u := n]))
    else
      var n := User(u, Some(username), Some(childNames), Some(age), Some(traits),
                    Some(contextActive.GetOr("")), None, None, 0);
      PutUserValid(st, u, n);
      Txn(true, st.(users := st.users[u := n]))
  }

  /** Storing a user row under its own id, with the other tables unchanged, keeps the store valid. */
  lemma {:induction false} PutUserValid(st: Store, u: int, n: User)
    ensures Valid(st) && n.telegramId == u ==> Valid(st.(users := st.users[u := n]))
  {
    var after := st.(users := st.users[u := n]);
    assert forall v :: StoryCount(after, v) == StoryCount(st, v);
    assert forall v :: ContextCount(after, v, ArchivedKind) == ContextCount(st, v, ArchivedKind);
  }

  /** The `User` attributes a keyword of `update_user_fields` can set to a text value. */
  const TextColumns: set<string> :=
    {"username", "child_names", "age", "traits", "context_active", "wishes", "feedback"}

  /** Column `key` set from `fields` when the key is given, kept otherwise. */
  function Patched(fields: map<string, string>, key: string, current: Option<string>): Option<string> {
    if key in fields then Some(fields[key]) else current
  }

  /**
   * `update_user_fields`: set every given key that names a column of the
   * user; keys that name no column (such as `last_user_message`) are
   * ignored without error. A missing user is reported as failure.
   */
  function UpdateUserFields(st: Store, u: int, fields: map<string, string>, fails: bool): (r: Txn)
    ensures r.ok <==> u in st.users && !fails
    ensures !r.ok ==> r.store == st
    ensures r.store.users.Keys == st.users.Keys
    ensures r.ok ==>
      var o, n := st.users[u], r.store.users[u];
      && n.telegramId == o.telegramId && n.storyTotal == o.storyTotal
      && (forall k :: k in TextColumns && k in fields ==> ColumnValue(n, k) == Some(fields[k]))
      && (forall k :: k in TextColumns && k !in fields ==> ColumnValue(n, k) == ColumnValue(o, k))
    ensures forall v :: v in st.users && v != u ==> r.store.users[v] == st.users[v]
    ensures r.store.stories == st.stories && r.store.contexts == st.contexts
    ensures Valid(st) ==> Valid(r.store)
  {
    if u !in st.users || fails then Txn(false, st)
    else
      var o := st.users[u];
      var n := o.(
        username := Patched(fields, "username", o.username),
        childNames := Patched(fields, "child_names", o.childNames),
        age := Patched(fields, "age", o.age),
        traits := Patched(fields, "traits", o.traits),
        contextActive := Patched(fields, "context_active", o.contextActive),
        wishes := Patched(fields, "wishes", o.wishes),
        feedback := Patched(fields, "feedback", o.feedback));
      PutUserValid(st, u, n);
      Txn(true, st.(users := st.users[u := n]))
  }

  /** The value of text column `key` of a user, looked up by its column name. */
  function ColumnValue(user: User, key: string): Option<string>
    requires key in TextColumns
  {
    match key
    case "username" => user.username
    case "child_names" => user.childNames
    case "age" => user.age
    case "traits" => user.traits
    case "context_active" => user.contextActive
    case "wishes" => user.wishes
    case _ => user.feedback
  }

  /** Unknown keys change nothing: the update is the update with only the column keys. */
  lemma {:induction false} UpdateIgnoresUnknownKeys(st: Store, u: int, fields: map<string, string>, fails: bool)
    ensures UpdateUserFields(st, u, fields, fails)
         == UpdateUserFields(st, u, map k | k in fields && k in TextColumns :: fields[k], fails)
  {
  }

  /** `increment_story_total`: the new total, or 0 when the user is missing or the commit fails. */
  function IncrementStoryTotal(st: Store, u: int, fails: bool): (r: (int, Store))
    ensures u !in st.users || fails ==> r == (0, st)
    ensures u in st.users && !fails ==>
      && r.0 == st.users[u].storyTotal + 1
      && r.1 == st.(users := st.users[u := st.users[u].(storyTotal := r.0)])
    ensures Valid(st) ==> Valid(r.1)
  {
    if u !in st.users || fails then (0, st)
    else
      var o := st.users[u];
      var total := o.storyTotal + 1;
      PutUserValid(st, u, o.(storyTotal := total));
      (total, st.(users := st.users[u := o.(storyTotal := total)]))
  }

  // ---------------------------------------------------------------- stories

  /** `_trim_stories`: keep only the user's `limit` newest stories. */
  function TrimStories(stories: seq<Story>, u: int, limit: nat): (r: seq<Story>)
    ensures History.Count(r, StoryOf(u)) ==
      if History.Count(stories, StoryOf(u)) <= limit then History.Count(stories, StoryOf(u)) else limit
    ensures History.Select(r, StoryOf(u), false) == History.Select(stories, StoryOf(u), false)
    ensures forall s :: s in r ==> s in stories
    ensures multiset(r) <= multiset(stories)
    ensures History.KeepsNewest(r, stories, StoryOf(u), StoryTime())
  {
    History.TrimKeepsNewest(stories, StoryOf(u), StoryTime(), limit);
    History.Trim(stories, StoryOf(u), StoryTime(), limit)
  }

  /** Trimming one user's stories leaves every other user's story count as it was. */
  lemma {:induction false} TrimStoriesOthers(stories: seq<Story>, u: int, limit: nat, v: int)
    requires v != u
    ensures History.Count(TrimStories(stories, u, limit), StoryOf(v)) == History.Count(stories, StoryOf(v))
  {
    var r := TrimStories(stories, u, limit);
    History.SelectOutside(r, StoryOf(u), StoryOf(v));
    History.SelectOutside(stories, StoryOf(u), StoryOf(v));
  }

  /**
   * `save_story`: in one transaction, insert the story stamped `now`, add one
   * to the user's `story_total` and trim the user's stories to five. A
   * missing user rolls everything back.
   */
  function SaveStory(st: Store, u: int, text: string, model: string, now: int, fails: bool): (r: Txn)
    ensures r.ok <==> u in st.users && !fails
    ensures !r.ok ==> r.store == st
    ensures r.ok ==>
      && r.store.users == st.users[u := st.users[u].(storyTotal := st.users[u].storyTotal + 1)]
      && StoryCount(r.store, u) == (if StoryCount(st, u) < StoryKeep then StoryCount(st, u) + 1 else StoryKeep)
      && History.Select(r.store.stories, StoryOf(u), false) == History.Select(st.stories, StoryOf(u), false)
      && (forall s :: s in r.store.stories ==> s in st.stories || s == NewStory(st, u, text, model, now))
      && multiset(r.store.stories) <= multiset(st.stories + [NewStory(st, u, text, model, now)])
      && History.KeepsNewest(r.store.stories, st.stories + [NewStory(st, u, text, model, now)], StoryOf(u), StoryTime())
      && r.store.contexts == st.contexts
    ensures Valid(st) ==> NewStory(st, u, text, model, now) !in st.stories
    ensures Valid(st) ==> Valid(r.store)
  {
    if u !in st.users || fails then Txn(false, st)
    else
      var o := st.users[u];
      var story := NewStory(st, u, text, model, now);
      History.CountAppend(st.stories, story, StoryOf(u));
      var stories := TrimStories(st.stories + [story], u, StoryKeep);
      var after := Store(st.users[u := o.(storyTotal := o.storyTotal + 1)], stories,
                         st.contexts, st.nextStoryId + 1, st.nextContextId);
      assert History.Select(st.stories + [story], StoryOf(u), false) == History.Select(st.stories, StoryOf(u), false) by {
        History.SelectAppend(st.stories, [story], StoryOf(u), false);
        History.SelectSingleton(story, StoryOf(u), false);
      }
      SaveStoryValid(st, u, story, after);
      Txn(true, after)
  }

  /** The row `save_story` inserts. */
  function NewStory(st: Store, u: int, text: string, model: string, now: int): Story {
    Story(st.nextStoryId, u, text, model, now)
  }

  lemma {:induction false} SaveStoryValid(st: Store, u: int, story: Story, after: Store)
    requires u in st.users && story.userId == u && story.id == st.nextStoryId
    requires after.users.Keys == st.users.Keys && after.contexts == st.contexts
    requires after.nextStoryId == st.nextStoryId + 1 && after.nextContextId == st.nextContextId
    requires forall v :: v in after.users ==> after.users[v].telegramId == st.users[v].telegramId
    requires after.stories == TrimStories(st.stories + [story], u, StoryKeep)
    ensures Valid(st) ==> Valid(after)
  {
    if Valid(st) {
      var added := st.stories + [story];
      forall v ensures StoryCount(after, v) <= StoryKeep {
        if v != u {
          History.CountAppend(st.stories, story, StoryOf(v));
          TrimStoriesOthers(added, u, StoryKeep, v);
          assert StoryCount(after, v) == StoryCount(st, v);
        } else {
          assert StoryCount(after, v) == History.Count(TrimStories(added, u, StoryKeep), StoryOf(u));
        }
      }
      forall s | s in after.stories ensures s.userId in after.users && s.id < after.nextStoryId {
      }
      History.UniqueAppend(st.stories, story, StoryId());
      History.UniqueSub(after.stories, added, StoryId());
      assert forall v :: ContextCount(after, v, ArchivedKind) == ContextCount(st, v, ArchivedKind);
    }
  }

  /**
   * With a clock that never runs backwards for this user (no stored story of
   * theirs is newer than `now`), the story just saved is among the kept ones.
   */
  lemma {:induction false} SaveStoryKeepsNewStory(st: Store, u: int, text: string, model: string, now: int, fails: bool)
    requires u in st.users && !fails
    requires forall s :: s in st.stories && s.userId == u ==> s.createdAt <= now
    ensures NewStory(st, u, text, model, now) in SaveStory(st, u, text, model, now, fails).store.stories
  {
    var story := NewStory(st, u, text, model, now);
    var rows := st.stories + [story];
    assert History.Last(rows) == story;
    assert History.LatestIsNewest(rows, StoryOf(u), StoryTime()) by {
      forall j | 0 <= j < |rows| && StoryOf(u)(rows[j])
        ensures StoryTime()(rows[j]) <= StoryTime()(History.Last(rows))
      {
        if j < |st.stories| { assert rows[j] in st.stories; }
      }
    }
    History.TrimKeepsLatest(rows, StoryOf(u), StoryTime(), StoryKeep);
    var kept := History.Trim(rows, StoryOf(u), StoryTime(), StoryKeep);
    assert kept[|kept| - 1] == story;
  }

  /**
   * `get_last_stories`: at most `limit` of the user's stories, each taken
   * once, newest first, and none of the user's stories left out is newer
   * than one returned; nothing when the query raises (`fails`).
   */
  function GetLastStories(st: Store, u: int, limit: nat, fails: bool): (r: seq<Story>)
    ensures fails ==> r == []
    ensures !fails ==> |r| == if StoryCount(st, u) <= limit then StoryCount(st, u) else limit
    ensures forall s :: s in r ==> s in st.stories && s.userId == u
    ensures multiset(r) <= multiset(st.stories)
    ensures forall a, b :: 0 <= a < b < |r| ==> r[b].createdAt <= r[a].createdAt
    ensures forall s, d :: s in r && d in st.stories && d.userId == u && d !in r ==> d.createdAt <= s.createdAt
  {
    if fails then []
    else
      var r := History.TakeNewest(st.stories, StoryOf(u), StoryTime(), limit);
      History.TakeNewestMembers(st.stories, StoryOf(u), StoryTime(), limit);
      History.TakeNewestSub(st.stories, StoryOf(u), StoryTime(), limit);
      History.TakeNewestLength(st.stories, StoryOf(u), StoryTime(), limit);
      History.TakeNewestSorted(st.stories, StoryOf(u), StoryTime(), limit);
      History.TakeNewestTop(st.stories, StoryOf(u), StoryTime(), limit);
      assert forall s :: s in r ==> StoryOf(u)(s);
      r
  }

  /** In a valid store the newest-first answer never holds one story twice. */
  lemma {:induction false} GetLastStoriesUnique(st: Store, u: int, limit: nat, fails: bool)
    requires Valid(st)
    ensures History.Unique(GetLastStories(st, u, limit, fails), StoryId())
  {
    History.UniqueSub(GetLastStories(st, u, limit, fails), st.stories, StoryId());
  }

  // ---------------------------------------------------------------- contexts

  /** `_trim_contexts`: keep only the `limit` newest contexts of one user and kind. */
  function TrimContexts(contexts: seq<Context>, u: int, kind: string, limit: nat): (r: seq<Context>)
    ensures History.Count(r, ContextOfKind(u, kind)) ==
      var n := History.Count(contexts, ContextOfKind(u, kind)); if n <= limit then n else limit
    ensures History.Select(r, ContextOfKind(u, kind), false) == History.Select(contexts, ContextOfKind(u, kind), false)
    ensures forall c :: c in r ==> c in contexts
    ensures multiset(r) <= multiset(contexts)
    ensures History.KeepsNewest(r, contexts, ContextOfKind(u, kind), ContextTime())
  {
    History.TrimKeepsNewest(contexts, ContextOfKind(u, kind), ContextTime(), limit);
    History.Trim(contexts, ContextOfKind(u, kind), ContextTime(), limit)
  }

  /**
   * `add_context`: insert a context stamped `now`; only an archived one
   * triggers a trim, and that trim deletes archived rows of this user only.
   * A user that does not exist makes the insert violate the foreign key.
   */
  function AddContext(st: Store, u: int, kind: string, content: string, now: int, fails: bool): (r: Txn)
    ensures r.ok <==> u in st.users && !fails
    ensures !r.ok ==> r.store == st
    ensures r.ok ==> r.store.users == st.users && r.store.stories == st.stories
    ensures r.ok && kind != ArchivedKind ==> r.store.contexts == st.contexts + [NewContext(st, u, kind, content, now)]
    ensures r.ok && kind == ArchivedKind ==>
      && ContextCount(r.store, u, kind) == (if ContextCount(st, u, kind) < ArchivedKeep then ContextCount(st, u, kind) + 1 else ArchivedKeep)
      && History.Select(r.store.contexts, ContextOfKind(u, kind), false)
         == History.Select(st.contexts, ContextOfKind(u, kind), false)
      && multiset(r.store.contexts) <= multiset(st.contexts + [NewContext(st, u, kind, content, now)])
      && History.KeepsNewest(r.store.contexts, st.contexts + [NewContext(st, u, kind, content, now)],
                             ContextOfKind(u, kind), ContextTime())
    ensures Valid(st) ==> NewContext(st, u, kind, content, now) !in st.contexts
    ensures Valid(st) ==> Valid(r.store)
  {
    if u !in st.users || fails then Txn(false, st)
    else
      var c := NewContext(st, u, kind, content, now);
      var added := st.contexts + [c];
      History.CountAppend(st.contexts, c, ContextOfKind(u, kind));
      var contexts := if kind == ArchivedKind then TrimContexts(added, u, kind, ArchivedKeep) else added;
      var after := st.(contexts := contexts, nextContextId := st.nextContextId + 1);
      if kind == ArchivedKind then
        assert History.Select(added, ContextOfKind(u, kind), false) == History.Select(st.contexts, ContextOfKind(u, kind), false) by {
          History.SelectAppend(st.contexts, [c], ContextOfKind(u, kind), false);
          History.SelectSingleton(c, ContextOfKind(u, kind), false);
        }
        AddContextValid(st, u, c, after);
        Txn(true, after)
      else
        AddContextValid(st, u, c, after);
        Txn(true, after)
  }

  function NewContext(st: Store, u: int, kind: string, content: string, now: int): Context {
    Context(st.nextContextId, u, kind, content, now)
  }

  /**
   * With a clock that never runs backwards for this user (no stored context
   * of theirs of this kind is newer than `now`), the context just added is
   * among the kept ones, whatever its kind.
   */
  lemma {:induction false} AddContextKeepsNewContext(st: Store, u: int, kind: string, content: string, now: int, fails: bool)
    requires u in st.users && !fails
    requires forall c :: c in st.contexts && c.userId == u && c.kind == kind ==> c.createdAt <= now
    ensures NewContext(st, u, kind, content, now) in AddContext(st, u, kind, content, now, fails).store.contexts
  {
    var c := NewContext(st, u, kind, content, now);
    var rows := st.contexts + [c];
    assert History.Last(rows) == c;
    if kind == ArchivedKind {
      assert History.LatestIsNewest(rows, ContextOfKind(u, kind), ContextTime()) by {
        forall j | 0 <= j < |rows| && ContextOfKind(u, kind)(rows[j])
          ensures ContextTime()(rows[j]) <= ContextTime()(History.Last(rows))
        {
          if j < |st.contexts| { assert rows[j] in st.contexts; }
        }
      }
      History.TrimKeepsLatest(rows, ContextOfKind(u, kind), ContextTime(), ArchivedKeep);
      var kept := History.Trim(rows, ContextOfKind(u, kind), ContextTime(), ArchivedKeep);
      assert kept[|kept| - 1] == c;
    } else {
      assert rows[|rows| - 1] == c;
    }
  }

  lemma {:induction false} AddContextValid(st: Store, u: int, c: Context, after: Store)
    requires u in st.users && c.userId == u && c.id == st.nextContextId
    requires after.users == st.users && after.stories == st.stories
    requires after.nextStoryId == st.nextStoryId && after.nextContextId == st.nextContextId + 1
    requires after.contexts ==
      (if c.kind == ArchivedKind then TrimContexts(st.contexts + [c], u, c.kind, ArchivedKeep) else st.contexts + [c])
    ensures Valid(st) ==> Valid(after)
  {
    if Valid(st) {
      var added := st.contexts + [c];
      forall v ensures ContextCount(after, v, ArchivedKind) <= ArchivedKeep {
        History.CountAppend(st.contexts, c, ContextOfKind(v, ArchivedKind));
        if c.kind != ArchivedKind {
          assert ContextCount(after, v, ArchivedKind) == ContextCount(st, v, ArchivedKind);
        } else if v != u {
          History.SelectOutside(after.contexts, ContextOfKind(u, ArchivedKind), ContextOfKind(v, ArchivedKind));
          History.SelectOutside(added, ContextOfKind(u, ArchivedKind), ContextOfKind(v, ArchivedKind));
          assert ContextCount(after, v, ArchivedKind) == ContextCount(st, v, ArchivedKind);
        } else {
          assert ContextCount(after, v, ArchivedKind)
              == History.Count(TrimContexts(added, u, ArchivedKind, ArchivedKeep), ContextOfKind(u, ArchivedKind));
        }
      }
      forall x | x in after.contexts ensures x.userId in after.users && x.id < after.nextContextId {
        assert x in added;
      }
      History.UniqueAppend(st.contexts, c, ContextId());
      if c.kind == ArchivedKind {
        History.UniqueSub(after.contexts, added, ContextId());
      }
      assert forall v :: StoryCount(after, v) == StoryCount(st, v);
    }
  }

  /**
   * `get_active_context`: the content of the user's newest "active"
   * context, or None when there is none or when the query raises (`fails`).
   */
  function GetActiveContext(st: Store, u: int, fails: bool): (r: Option<string>)
    ensures r.None? <==> fails || forall c :: c in st.contexts ==> !(c.userId == u && c.kind == ActiveKind)
    ensures r.Some? ==> exists i :: 0 <= i < |st.contexts| && IsNewestActive(st, u, i) && st.contexts[i].content == r.value
  {
    var g := ContextOfKind(u, ActiveKind);
    History.CountZero(st.contexts, g);
    if fails || History.Count(st.contexts, g) == 0 then None
    else
      var i := History.NewestIndex(st.contexts, g, ContextTime());
      assert IsNewestActive(st, u, i);
      Some(st.contexts[i].content)
  }

  /** Row `i` is an active context of `u` and no active context of `u` is newer. */
  ghost predicate IsNewestActive(st: Store, u: int, i: int)
    requires 0 <= i < |st.contexts|
  {
    && st.contexts[i].userId == u && st.contexts[i].kind == ActiveKind
    && forall j :: 0 <= j < |st.contexts| && st.contexts[j].userId == u && st.contexts[j].kind == ActiveKind ==>
         st.contexts[j].createdAt <= st.contexts[i].createdAt
  }

  // ---------------------------------------------------------------- delete

  /**
   * `delete_user_profile`: remove the user together with every story and
   * context they own (the cascade of the ORM relationship and of the
   * foreign keys); other users and their rows stay.
   */
  function DeleteUserProfile(st: Store, u: int, fails: bool): (r: Txn)
    ensures r.ok <==> u in st.users && !fails
    ensures !r.ok ==> r.store == st
    ensures r.ok ==>
      && r.store.users == st.users - {u}
      && (forall s :: s in r.store.stories <==> s in st.stories && s.userId != u)
      && (forall c :: c in r.store.contexts <==> c in st.contexts && c.userId != u)
    ensures Valid(st) ==> Valid(r.store)
  {
    if u !in st.users || fails then Txn(false, st)
    else
      var after := st.(
        users := st.users - {u},
        stories := History.Select(st.stories, StoryOf(u), false),
        contexts := History.Select(st.contexts, ContextOf(u), false));
      forall s ensures s in after.stories <==> s in st.stories && s.userId != u {
        History.SelectMember(st.stories, StoryOf(u), false, s);
      }
      forall c ensures c in after.contexts <==> c in st.contexts && c.userId != u {
        History.SelectMember(st.contexts, ContextOf(u), false, c);
      }
      DeleteValid(st, u, after);
      Txn(true, after)
  }

  lemma {:induction false} DeleteValid(st: Store, u: int, after: Store)
    requires after.users == st.users - {u}
    requires after.nextStoryId == st.nextStoryId && after.nextContextId == st.nextContextId
    requires after.stories == History.Select(st.stories, StoryOf(u), false)
    requires after.contexts == History.Select(st.contexts, ContextOf(u), false)
    ensures Valid(st) ==> Valid(after)
  {
    if Valid(st) {
      forall s | s in after.stories ensures s.userId in after.users && s.id < after.nextStoryId {
        History.SelectMember(st.stories, StoryOf(u), false, s);
      }
      forall c | c in after.contexts ensures c.userId in after.users && c.id < after.nextContextId {
        History.SelectMember(st.contexts, ContextOf(u), false, c);
      }
      History.SelectSub(st.stories, StoryOf(u), false);
      History.UniqueSub(after.stories, st.stories, StoryId());
      History.SelectSub(st.contexts, ContextOf(u), false);
      History.UniqueSub(after.contexts, st.contexts, ContextId());
      forall v ensures StoryCount(after, v) <= StoryKeep {
        DeleteStoryCount(st, u, v);
      }
      forall v ensures ContextCount(after, v, ArchivedKind) <= ArchivedKeep {
        DeleteContextCount(st, u, v);
      }
    }
  }

  lemma {:induction false} DeleteStoryCount(st: Store, u: int, v: int)
    ensures History.Count(History.Select(st.stories, StoryOf(u), false), StoryOf(v))
         == if v == u then 0 else StoryCount(st, v)
  {
    if v == u {
      History.CountOutsideIsZero(st.stories, StoryOf(u));
    } else {
      History.SelectOutside(st.stories, StoryOf(u), StoryOf(v));
    }
  }

  lemma {:induction false} DeleteContextCount(st: Store, u: int, v: int)
    ensures History.Count(History.Select(st.contexts, ContextOf(u), false), ContextOfKind(v, ArchivedKind))
         == if v == u then 0 else ContextCount(st, v, ArchivedKind)
  {
    var rest := History.Select(st.contexts, ContextOf(u), false);
    if v == u {
      History.CountZero(rest, ContextOfKind(u, ArchivedKind));
      forall j | 0 <= j < |rest| ensures !ContextOfKind(u, ArchivedKind)(rest[j]) {
        History.SelectMember(st.contexts, ContextOf(u), false, rest[j]);
      }
    } else {
      History.SelectOutside(st.contexts, ContextOf(u), ContextOfKind(v, ArchivedKind));
    }
  }
}

=== FILE: split_message.dfy ===
/**
 * `split_message`: cut a long story into messages that fit Telegram's
 * limit, preferably at sentence ends, else at paragraph breaks, and as a
 * last resort at fixed widths.
 */
module SplitMessage {
  import opened Text

  const DefaultMaxLength: nat := 3800

  /** Sentences shorter than this many characters are not cut at their terminator. */
  const MinSentence: nat := 10

  predicate IsTerminator(c: char) {
    c == '.' || c == '!' || c == '?'
  }

  function Concat(parts: seq<string>): string {
    if |parts| == 0 then "" else parts[0] + Concat(parts[1..])
  }

  lemma {:induction false} ConcatAppend(a: seq<string>, b: seq<string>)
    ensures Concat(a + b) == Concat(a) + Concat(b)
  {
    if |a| > 0 {
      assert (a + b)[1..] == a[1..] + b;
      ConcatAppend(a[1..], b);
    } else {
      assert a + b == b;
    }
  }

  // ---------------------------------------------------------------- sentences

  /**
   * The character scan of `split_message`: the buffer is closed after a
   * terminator once it holds more than ten characters; what is left at the
   * end is the last sentence.
   */
  function Scan(rest: string, buffer: string): (r: seq<string>)
    decreases |rest|
  {
    if |rest| == 0 then (if buffer == "" then [] else [buffer])
    else
      var b := buffer + [rest[0]];
      if IsTerminator(rest[0]) && |b| > MinSentence then [b] + Scan(rest[1..], "")
      else Scan(rest[1..], b)
  }

  function Sentences(text: string): (r: seq<string>) {
    Scan(text, "")
  }

  /** The sentences put back together are the text, and none of them is empty. */
  lemma {:induction false} ScanCovers(rest: string, buffer: string)
    ensures Concat(Scan(rest, buffer)) == buffer + rest
    ensures forall i :: 0 <= i < |Scan(rest, buffer)| ==> Scan(rest, buffer)[i] != ""
    ensures forall i :: 0 <= i < |Scan(rest, buffer)| - 1 ==>
      |Scan(rest, buffer)[i]| > MinSentence && IsTerminator(Scan(rest, buffer)[i][|Scan(rest, buffer)[i]| - 1])
    decreases |rest|
  {
    if |rest| > 0 {
      var b := buffer + [rest[0]];
      assert b + rest[1..] == buffer + rest;
      if IsTerminator(rest[0]) && |b| > MinSentence {
        ScanCovers(rest[1..], "");
        var tail := Scan(rest[1..], "");
        assert Scan(rest, buffer) == [b] + tail;
        assert ([b] + tail)[1..] == tail;
      } else {
        ScanCovers(rest[1..], b);
      }
    }
  }

  lemma {:induction false} SentencesCover(text: string)
    ensures Concat(Sentences(text)) == text
    ensures forall i :: 0 <= i < |Sentences(text)| ==> Sentences(text)[i] != ""
    ensures forall i :: 0 <= i < |Sentences(text)| - 1 ==>
      |Sentences(text)[i]| > MinSentence && IsTerminator(Sentences(text)[i][|Sentences(text)[i]| - 1])
  {
    ScanCovers(text, "");
  }

  // ---------------------------------------------------------------- paragraphs

  const ParagraphBreak: string := "\n\n"

  /** Python's `str.split("\n\n")`: cut at every non-overlapping break, scanning left to right. */
  function SplitParagraphs(rest: string, current: string): (r: seq<string>)
    ensures |r| >= 1
    decreases |rest|
  {
    if |rest| < 2 then [current + rest]
    else if rest[..2] == ParagraphBreak then [current] + SplitParagraphs(rest[2..], "")
    else SplitParagraphs(rest[1..], current + [rest[0]])
  }

  function Paragraphs(text: string): (r: seq<string>)
    ensures |r| >= 1
  {
    SplitParagraphs(text, "")
  }

  /** Paragraphs joined with the break between them. */
  function Join(parts: seq<string>): string
    requires |parts| >= 1
  {
    if |parts| == 1 then parts[0] else parts[0] + ParagraphBreak + Join(parts[1..])
  }

  /** Joining the paragraphs with the break gives the text back. */
  lemma {:induction false} SplitParagraphsJoin(rest: string, current: string)
    ensures Join(SplitParagraphs(rest, current)) == current + rest
    decreases |rest|
  {
    if |rest| >= 2 {
      if rest[..2] == ParagraphBreak {
        SplitParagraphsJoin(rest[2..], "");
        var tail := SplitParagraphs(rest[2..], "");
        assert ([current] + tail)[1..] == tail;
        assert rest == rest[..2] + rest[2..];
      } else {
        SplitParagraphsJoin(rest[1..], current + [rest[0]]);
        assert current + [rest[0]] + rest[1..] == current + rest;
      }
    }
  }

  lemma {:induction false} ParagraphsJoin(text: string)
    ensures Join(Paragraphs(text)) == text
  {
    SplitParagraphsJoin(text, "");
  }

  // ---------------------------------------------------------------- packing

  /** Fixed-width slices `s[i:i + width]` for `i` in `range(0, len(s), width)`. */
  function HardSlices(s: string, width: nat): (r: seq<string>)
    requires width > 0
    ensures forall i :: 0 <= i < |r| ==> 0 < |r[i]| <= width
    ensures Concat(r) == s
    ensures |s| > 0 ==> |r| > 0
    decreases |s|
  {
    if |s| == 0 then []
    else if |s| <= width then [s]
    else
      var tail := HardSlices(s[width..], width);
      assert ([s[..width]] + tail)[1..] == tail;
      assert s == s[..width] + s[width..];
      [s[..width]] + tail
  }

  /** A piece of text before it becomes a message: an accumulated run of sentences, or a slice. */
  datatype Piece = Packed(text: string) | Slice(text: string)

  /** The message a piece becomes: accumulated runs are stripped, slices are sent as they are. */
  function Emit(p: Piece): (m: string)
    ensures |m| <= |p.text|
  {
    match p
    case Packed(t) => Strip(t)
    case Slice(t) => t
  }

  function Raw(pieces: seq<Piece>): (r: seq<string>)
    ensures |r| == |pieces|
    ensures forall i :: 0 <= i < |r| ==> r[i] == pieces[i].text
  {
    seq(|pieces|, i requires 0 <= i < |pieces| => pieces[i].text)
  }

  function Messages(pieces: seq<Piece>): (r: seq<string>)
    ensures |r| == |pieces|
    ensures forall i :: 0 <= i < |r| ==> r[i] == Emit(pieces[i])
  {
    seq(|pieces|, i requires 0 <= i < |pieces| => Emit(pieces[i]))
  }

  function AsSlices(parts: seq<string>): (r: seq<Piece>)
    ensures Raw(r) == parts
    ensures forall i :: 0 <= i < |r| ==> r[i].Slice?
  {
    seq(|parts|, i requires 0 <= i < |parts| => Slice(parts[i]))
  }

  /** The run accumulated so far, if any, as a piece. */
  function Flush(current: string): seq<Piece> {
    if current != "" then [Packed(current)] else []
  }

  /**
   * The packing loop of `split_message`: a part joins the current run while
   * the run stays within `width`; otherwise the run is flushed, and the part
   * either starts the next run or, when it is too long by itself, is cut
   * into slices.
   */
  function Pack(parts: seq<string>, current: string, width: nat): seq<Piece>
    requires width > 0
  {
    if |parts| == 0 then Flush(current)
    else
      var s := parts[0];
      if |current| + |s| <= width then Pack(parts[1..], current + s, width)
      else if |s| > width then Flush(current) + AsSlices(HardSlices(s, width)) + Pack(parts[1..], "", width)
      else Flush(current) + Pack(parts[1..], s, width)
  }

  lemma {:induction false} RawAppend(a: seq<Piece>, b: seq<Piece>)
    ensures Raw(a + b) == Raw(a) + Raw(b)
  {
  }

  /** Every piece fits the width. */
  ghost predicate Fits(pieces: seq<Piece>, width: nat) {
    forall i :: 0 <= i < |pieces| ==> |pieces[i].text| <= width
  }

  lemma {:induction false} Glue(a: seq<Piece>, b: seq<Piece>, c: seq<Piece>, width: nat)
    requires Fits(a, width) && Fits(b, width) && Fits(c, width)
    ensures Concat(Raw(a + b + c)) == Concat(Raw(a)) + Concat(Raw(b)) + Concat(Raw(c))
    ensures Fits(a + b + c, width)
  {
    RawAppend(a + b, c);
    RawAppend(a, b);
    ConcatAppend(Raw(a) + Raw(b), Raw(c));
    ConcatAppend(Raw(a), Raw(b));
  }

  lemma {:induction false} FlushCovers(current: string, width: nat)
    requires |current| <= width
    ensures Concat(Raw(Flush(current))) == current
    ensures Fits(Flush(current), width)
  {
    if current != "" {
      assert Raw(Flush(current)) == [current];
      assert Concat([current]) == current + Concat([]);
    }
  }

  /**
   * Packing loses nothing and emits nothing too long: the pieces put back
   * together are the run plus the parts, and every piece fits the width.
   */
  lemma {:induction false} PackCovers(parts: seq<string>, current: string, width: nat)
    requires width > 0 && |current| <= width
    ensures Concat(Raw(Pack(parts, current, width))) == current + Concat(parts)
    ensures Fits(Pack(parts, current, width), width)
    decreases |parts|
  {
    if |parts| == 0 {
      FlushCovers(current, width);
      assert current + Concat(parts) == current;
    } else {
      var s := parts[0];
      if |current| + |s| <= width {
        PackCovers(parts[1..], current + s, width);
        assert current + s + Concat(parts[1..]) == current + Concat(parts);
      } else {
        var next := if |s| > width then "" else s;
        PackCovers(parts[1..], next, width);
        PackStep(parts, current, width);
      }
    }
  }

  /** One flushing step of the packing loop, given what the rest of the loop does. */
  lemma {:induction false} PackStep(parts: seq<string>, current: string, width: nat)
    requires width > 0 && |current| <= width && |parts| > 0 && |current| + |parts[0]| > width
    requires var next := if |parts[0]| > width then "" else parts[0];
      && Concat(Raw(Pack(parts[1..], next, width))) == next + Concat(parts[1..])
      && Fits(Pack(parts[1..], next, width), width)
    ensures Concat(Raw(Pack(parts, current, width))) == current + Concat(parts)
    ensures Fits(Pack(parts, current, width), width)
  {
    var s := parts[0];
    var next := if |s| > width then "" else s;
    var mid := if |s| > width then AsSlices(HardSlices(s, width)) else [];
    var rest := Pack(parts[1..], next, width);
    MiddleCovers(s, width);
    PackFlushes(parts, current, width);
    FlushCovers(current, width);
    Combine(Flush(current), mid, rest, current, s, next, Concat(parts[1..]), width);
    assert Concat(parts) == s + Concat(parts[1..]);
  }

  /** Three runs of pieces that each fit and cover their texts cover the texts put together. */
  lemma {:induction false} Combine(a: seq<Piece>, b: seq<Piece>, c: seq<Piece>, current: string, s: string, next: string, tail: string, width: nat)
    requires Fits(a, width) && Fits(b, width) && Fits(c, width)
    requires Concat(Raw(a)) == current
    requires Concat(Raw(b)) + next == s
    requires Concat(Raw(c)) == next + tail
    ensures Concat(Raw(a + b + c)) == current + (s + tail)
    ensures Fits(a + b + c, width)
  {
    Glue(a, b, c, width);
    var m := Concat(Raw(b));
    assert m + (next + tail) == (m + next) + tail;
  }

  /** A part that does not fit flushes the run, then goes to slices or starts the next run. */
  lemma {:induction false} PackFlushes(parts: seq<string>, current: string, width: nat)
    requires width > 0 && |parts| > 0 && |current| + |parts[0]| > width
    ensures var s := parts[0];
      var next := if |s| > width then "" else s;
      var mid := if |s| > width then AsSlices(HardSlices(s, width)) else [];
      Pack(parts, current, width) == Flush(current) + mid + Pack(parts[1..], next, width)
  {
    if |parts[0]| <= width {
      assert Flush(current) + [] == Flush(current);
    }
  }

  /** What a flushing step puts between the flushed run and the next one: the slices of a part too long by itself. */
  lemma {:induction false} MiddleCovers(s: string, width: nat)
    requires width > 0
    ensures var next := if |s| > width then "" else s;
      var mid := if |s| > width then AsSlices(HardSlices(s, width)) else [];
      Concat(Raw(mid)) + next == s && Fits(mid, width)
  {
    if |s| > width {
      var hs := HardSlices(s, width);
      assert Raw(AsSlices(hs)) == hs;
    } else {
      assert Raw([]) == [];
    }
  }

  // ---------------------------------------------------------------- the split

  /** Sentences when they all fit; otherwise the paragraphs. */
  function Parts(text: string, maxLength: nat): seq<string> {
    var ss := Sentences(text);
    if |ss| == 0 || exists i :: 0 <= i < |ss| && |ss[i]| > maxLength then Paragraphs(text) else ss
  }

  function Pieces(text: string, maxLength: nat): seq<Piece>
    requires maxLength > 0
  {
    Pack(Parts(text, maxLength), "", maxLength)
  }

  /**
   * `split_message` as written: a text that fits is sent whole; otherwise
   * the packed messages, or the whole text when packing produced none.
   */
  function SplitAsWritten(text: string, maxLength: nat): (r: seq<string>)
    requires maxLength > 0
    ensures |r| >= 1
    ensures |text| <= maxLength ==> r == [text]
    ensures r == [text] || forall i :: 0 <= i < |r| ==> |r[i]| <= maxLength
    ensures (exists j :: 0 <= j < |text| && text[j] != '\n') ==> forall i :: 0 <= i < |r| ==> |r[i]| <= maxLength
  {
    if |text| <= maxLength then [text]
    else
      var chunks := Messages(Pieces(text, maxLength));
      PackCovers(Parts(text, maxLength), "", maxLength);
      if |chunks| > 0 then chunks
      else
        NothingPackedOnlyBreaks(text, maxLength);
        [text]
  }

  /** Packing yields nothing only for a text made entirely of line breaks. */
  lemma {:induction false} NothingPackedOnlyBreaks(text: string, maxLength: nat)
    requires maxLength > 0 && |Pieces(text, maxLength)| == 0
    ensures forall j :: 0 <= j < |text| ==> text[j] == '\n'
  {
    var parts := Parts(text, maxLength);
    PackCovers(parts, "", maxLength);
    assert Raw(Pieces(text, maxLength)) == [];
    ConcatEmpty(parts);
    SentencesCover(text);
    assert parts == Paragraphs(text);
    ParagraphsJoin(text);
    JoinOfEmpties(parts);
  }

  /** Pieces that put together make nothing are all empty. */
  lemma {:induction false} ConcatEmpty(parts: seq<string>)
    requires Concat(parts) == ""
    ensures forall i :: 0 <= i < |parts| ==> parts[i] == ""
  {
    if |parts| > 0 {
      ConcatEmpty(parts[1..]);
      forall i | 0 <= i < |parts| ensures parts[i] == "" {
        if i > 0 { assert parts[i] == parts[1..][i - 1]; }
      }
    }
  }

  /** Empty paragraphs joined with breaks give nothing but line breaks. */
  lemma {:induction false} JoinOfEmpties(parts: seq<string>)
    requires |parts| >= 1 && forall i :: 0 <= i < |parts| ==> parts[i] == ""
    ensures forall j :: 0 <= j < |Join(parts)| ==> Join(parts)[j] == '\n'
  {
    if |parts| > 1 {
      JoinOfEmpties(parts[1..]);
      assert Join(parts) == ParagraphBreak + Join(parts[1..]);
    }
  }

  /**
   * The text made only of paragraph breaks packs to nothing, so the text is
   * returned whole although it is longer than the limit.
   */
  lemma {:induction false} AsWrittenExceedsLimit()
    ensures var r := SplitAsWritten("\n\n\n\n", 3); r == ["\n\n\n\n"] && |r[0]| > 3
  {
    var text := "\n\n\n\n";
    ScanWithoutTerminator(text, "");
    assert "" + text == text;
    assert Paragraphs(text) == ["", "", ""] by {
      assert text[..2] == ParagraphBreak && text[2..] == "\n\n";
      assert text[2..][..2] == ParagraphBreak && text[2..][2..] == "";
      assert "" + "" == "";
      assert SplitParagraphs("", "") == [""];
      assert SplitParagraphs(text[2..], "") == [""] + [""];
    }
    assert Pack(["", "", ""], "", 3) == [] by {
      assert ["", "", ""][1..] == ["", ""] && ["", ""][1..] == [""] && [""][1..] == [];
    }
  }

  /** Without a terminator the scan keeps everything in one buffer. */
  lemma {:induction false} ScanWithoutTerminator(rest: string, buffer: string)
    requires forall i :: 0 <= i < |rest| ==> !IsTerminator(rest[i])
    ensures Scan(rest, buffer) == if buffer + rest == "" then [] else [buffer + rest]
    decreases |rest|
  {
    if |rest| == 0 {
      assert buffer + rest == buffer;
    } else {
      assert !IsTerminator(rest[0]);
      ScanWithoutTerminator(rest[1..], buffer + [rest[0]]);
      assert buffer + [rest[0]] + rest[1..] == buffer + rest;
      assert buffer + rest != "";
    }
  }

  /**
   * `split_message` with the fallback corrected: when packing produces no
   * message, the text is cut into fixed-width slices instead of being sent
   * whole, so no message exceeds the limit.
   */
  function Split(text: string, maxLength: nat): (r: seq<string>)
    requires maxLength > 0
    ensures |r| >= 1
    ensures |text| <= maxLength ==> r == [text]
    ensures forall i :: 0 <= i < |r| ==> |r[i]| <= maxLength
  {
    if |text| <= maxLength then [text]
    else
      var pieces := Pieces(text, maxLength);
      PackCovers(Parts(text, maxLength), "", maxLength);
      var chunks := Messages(pieces);
      if |chunks| > 0 then chunks else HardSlices(text, maxLength)
  }

  /** The two agree whenever the original's fallback is not taken. */
  lemma {:induction false} SplitAgreesWhenPacked(text: string, maxLength: nat)
    requires maxLength > 0
    requires |text| <= maxLength || |Pieces(text, maxLength)| > 0
    ensures Split(text, maxLength) == SplitAsWritten(text, maxLength)
  {
  }

  /** The two agree on every text that holds a character other than a line break. */
  lemma {:induction false} SplitAgreesUnlessOnlyBreaks(text: string, maxLength: nat)
    requires maxLength > 0
    requires exists j :: 0 <= j < |text| && text[j] != '\n'
    ensures Split(text, maxLength) == SplitAsWritten(text, maxLength)
  {
    if |text| > maxLength && |Pieces(text, maxLength)| == 0 {
      NothingPackedOnlyBreaks(text, maxLength);
      assert false;
    }
  }

  /**
   * What the messages are made of: each one is a packed run stripped, or a
   * slice; the runs and slices together are the sentences of the text, or,
   * when some sentence is too long, its paragraphs without the breaks.
   */
  lemma {:induction false} SplitContent(text: string, maxLength: nat)
    requires maxLength > 0 && |text| > maxLength && |Pieces(text, maxLength)| > 0
    ensures Split(text, maxLength) == Messages(Pieces(text, maxLength))
    ensures Parts(text, maxLength) == Sentences(text) ==> Concat(Raw(Pieces(text, maxLength))) == text
    ensures Parts(text, maxLength) != Sentences(text) ==>
      && Concat(Raw(Pieces(text, maxLength))) == Concat(Paragraphs(text))
      && Join(Paragraphs(text)) == text
  {
    PackCovers(Parts(text, maxLength), "", maxLength);
    SentencesCover(text);
    ParagraphsJoin(text);
  }

  /** The sentence route is taken exactly when the text has sentences and none is over the limit. */
  lemma {:induction false} PartsChoice(text: string, maxLength: nat)
    requires |text| > maxLength
    ensures Parts(text, maxLength) == Sentences(text) || Parts(text, maxLength) == Paragraphs(text)
    ensures (forall i :: 0 <= i < |Sentences(text)| ==> |Sentences(text)[i]| <= maxLength)
      ==> Parts(text, maxLength) == Sentences(text)
  {
    SentencesCover(text);
    assert Concat([]) == "";
  }
}

=== FILE: story_prompt.dfy ===
/**
 * The prompt the story generator receives: when the profile names the
 * children, the routed prompt is wrapped in a header that names them, gives
 * their age and traits, and the situation to work through when there is
 * one; otherwise the routed prompt is sent as it is.
 */
module StoryPrompt {
  import opened Text
  import opened Models

  /** The parts of the header, in the order they are written. */
  datatype Section =
    | Heroes(names: string)
    | AgeLine(age: string)
    | TraitsLine(traits: string)
    | Situation(context: string)
    | Task(prompt: string)
    | Closing

  const HeroesTitle: string := "ГЛАВНЫЕ ГЕРОИ БАСНИ (обязательно используй их в басне):\n"
  const SituationRule: string := "Басня ОБЯЗАТЕЛЬНО должна разбирать именно эту ситуацию с явной моралью в конце.\n"
  const ClosingText: string :=
    "ВАЖНО: Главными героями басни ДОЛЖНЫ быть именно эти дети с указанными именами и чертами характера."

  function RenderSection(s: Section): string {
    match s
    case Heroes(n) => HeroesTitle + "- Имена: " + n + "\n"
    case AgeLine(a) => "- Возраст: " + a + "\n"
    case TraitsLine(t) => "- Черты характера: " + t + "\n"
    case Situation(c) => "\nВАЖНО - РЕАЛЬНАЯ СИТУАЦИЯ ДЛЯ РАЗБОРА:\n" + c + "\n" + SituationRule
    case Task(p) => "\nЗАДАНИЕ: " + p + "\n\n"
    case Closing => ClosingText
  }

  /** The renderings of the items, one after the other. */
  function Joined<T>(xs: seq<T>, f: T -> string): string {
    if |xs| == 0 then "" else f(xs[0]) + Joined(xs[1..], f)
  }

  function Render(ss: seq<Section>): string {
    Joined(ss, RenderSection)
  }

  /**
   * The header's sections for the stripped profile fields: the names, the
   * age and the traits when they are non-empty, the situation when there is
   * one, then the assignment line and the closing reminder.
   */
  function Sections(names: string, age: string, traits: string, context: string, task: string): (r: seq<Section>)
    ensures |r| >= 3 && r[0] == Heroes(names) && r[|r| - 2] == Task(task) && r[|r| - 1] == Closing
    ensures forall a :: AgeLine(a) in r <==> age != "" && a == age
    ensures forall t :: TraitsLine(t) in r <==> traits != "" && t == traits
    ensures forall c :: Situation(c) in r <==> context != "" && c == context
  {
    [Heroes(names)]
      + (if age != "" then [AgeLine(age)] else [])
      + (if traits != "" then [TraitsLine(traits)] else [])
      + (if context != "" then [Situation(context)] else [])
      + [Task(task), Closing]
  }

  /** The header's sections come in the order of their ranks. */
  lemma {:induction false} SectionsInOrder(names: string, age: string, traits: string, context: string, task: string)
    ensures var r := Sections(names, age, traits, context, task);
      forall i, j :: 0 <= i < j < |r| ==> Rank(r[i]) < Rank(r[j])
  {
  }

  /** The position of a kind of section in the header. */
  function Rank(s: Section): nat {
    match s
    case Heroes(_) => 0
    case AgeLine(_) => 1
    case TraitsLine(_) => 2
    case Situation(_) => 3
    case Task(_) => 4
    case Closing => 5
  }

  /** The prompt sent to the generator for a profile and a routed prompt. */
  function AssemblePrompt(p: Profile, task: string): (r: string)
    ensures Strip(p.childNames) == "" ==> r == task
  {
    var names := Strip(p.childNames);
    if names == "" then task
    else Render(Sections(names, Strip(p.age), Strip(p.traits), Strip(p.contextActive), task))
  }

  lemma {:induction false} JoinedAppend<T>(a: seq<T>, b: seq<T>, f: T -> string)
    ensures Joined(a + b, f) == Joined(a, f) + Joined(b, f)
  {
    if |a| == 0 {
      assert a + b == b;
    } else {
      assert (a + b)[1..] == a[1..] + b;
      JoinedAppend(a[1..], b, f);
    }
  }

  /**
   * With named children the prompt opens with the heroes' title and their
   * names, carries the routed prompt as its task line, and ends with the
   * closing reminder.
   */
  lemma {:induction false} HeaderShape(p: Profile, task: string)
    requires Strip(p.childNames) != ""
    ensures var r := AssemblePrompt(p, task);
      var head := HeroesTitle + "- Имена: " + Strip(p.childNames) + "\n";
      var tail := RenderSection(Task(task)) + ClosingText;
      && head <= r
      && |tail| <= |r|
      && r[|r| - |tail|..] == tail
  {
    var ss := Sections(Strip(p.childNames), Strip(p.age), Strip(p.traits), Strip(p.contextActive), task);
    RenderFrame(ss, task);
  }

  /** A header starts with the rendering of its first section and ends with its last two. */
  lemma {:induction false} RenderFrame(ss: seq<Section>, task: string)
    requires |ss| >= 3 && ss[|ss| - 2] == Task(task) && ss[|ss| - 1] == Closing
    ensures var r := Render(ss);
      var tail := RenderSection(Task(task)) + ClosingText;
      && RenderSection(ss[0]) <= r
      && |tail| <= |r|
      && r[|r| - |tail|..] == tail
  {
    var n := |ss|;
    var front := ss[..n - 2];
    assert ss == front + [Task(task), Closing];
    JoinedAppend(front, [Task(task), Closing], RenderSection);
    assert [Task(task), Closing][1..] == [Closing];
    assert Render([Closing]) == RenderSection(Closing) + Render([]);
    assert Render([Task(task), Closing]) == RenderSection(Task(task)) + ClosingText;
    assert Render(ss) == RenderSection(ss[0]) + Render(ss[1..]);
  }

  /** The situation block appears in the prompt exactly when the profile has an active context. */
  lemma {:induction false} SituationShown(p: Profile, task: string)
    requires Strip(p.childNames) != ""
    ensures var ss := Sections(Strip(p.childNames), Strip(p.age), Strip(p.traits), Strip(p.contextActive), task);
      && AssemblePrompt(p, task) == Render(ss)
      && (Situation(Strip(p.contextActive)) in ss <==> Strip(p.contextActive) != "")
  {
  }
}

=== FILE: text.dfy ===
/**
 * Character- and string-level helpers shared by the model: Python's
 * `str.strip()`, `str.lower()` restricted to the alphabets that matter here,
 * and `str(int)` for decimal rendering.
 */
module Text {

  /** Python's `str.isspace()` for one character (the Unicode White_Space set Python uses). */
  predicate IsSpace(c: char) {
    || c == ' '
    || ('\U{9}' <= c <= '\U{D}')
    || ('\U{1C}' <= c <= '\U{1F}')
    || c == '\U{85}' || c == '\U{A0}' || c == '\U{1680}'
    || ('\U{2000}' <= c <= '\U{200A}')
    || c == '\U{2028}' || c == '\U{2029}' || c == '\U{202F}' || c == '\U{205F}' || c == '\U{3000}'
  }

  /** Number of leading whitespace characters of `s`. */
  function LeadingSpace(s: string): (n: nat)
    ensures n <= |s|
    ensures forall i :: 0 <= i < n ==> IsSpace(s[i])
    ensures n < |s| ==> !IsSpace(s[n])
  {
    if |s| == 0 || !IsSpace(s[0]) then 0 else 1 + LeadingSpace(s[1..])
  }

  /** Number of trailing whitespace characters of `s`. */
  function TrailingSpace(s: string): (n: nat)
    ensures n <= |s|
    ensures forall i :: |s| - n <= i < |s| ==> IsSpace(s[i])
    ensures n < |s| ==> !IsSpace(s[|s| - n - 1])
  {
    if |s| == 0 || !IsSpace(s[|s| - 1]) then 0 else 1 + TrailingSpace(s[..|s| - 1])
  }

  /** Python's `str.strip()` with no argument. */
  function Strip(s: string): (r: string)
    ensures LeadingSpace(s) + |r| <= |s|
    ensures r == s[LeadingSpace(s)..LeadingSpace(s) + |r|]
    ensures forall i :: 0 <= i < LeadingSpace(s) ==> IsSpace(s[i])
    ensures forall i :: LeadingSpace(s) + |r| <= i < |s| ==> IsSpace(s[i])
    ensures |r| > 0 ==> !IsSpace(r[0]) && !IsSpace(r[|r| - 1])
  {
    var t := s[LeadingSpace(s)..];
    t[..|t| - TrailingSpace(t)]
  }

  /** A stripped string has nothing left to strip. */
  lemma {:induction false} StripIdempotent(s: string)
    ensures Strip(Strip(s)) == Strip(s)
  {
    var r := Strip(s);
    if |r| > 0 {
      assert LeadingSpace(r) == 0;
      assert TrailingSpace(r) == 0;
    }
  }

  /**
   * Python's `str.lower()` for one character, for the Latin and Cyrillic
   * capitals; every other character is left as it is.
   */
  function LowerChar(c: char): (l: char)
    ensures ('a' <= l <= 'z') ==> ('a' <= c <= 'z' || 'A' <= c <= 'Z')
  {
    if 'A' <= c <= 'Z' then (c as int + 32) as char
    else if '\U{410}' <= c <= '\U{42F}' then (c as int + 32) as char
    else if '\U{400}' <= c <= '\U{40F}' then (c as int + 80) as char
    else c
  }

  function Lower(s: string): (r: string)
    ensures |r| == |s|
    ensures forall i :: 0 <= i < |s| ==> r[i] == LowerChar(s[i])
  {
    if |s| == 0 then "" else [LowerChar(s[0])] + Lower(s[1..])
  }

  /** A decimal digit character for `0 <= d < 10`. */
  function DigitChar(d: int): (c: char)
    requires 0 <= d < 10
    ensures '0' <= c <= '9'
  {
    ('0' as int + d) as char
  }

  predicate IsDigit(c: char) {
    '0' <= c <= '9'
  }

  predicate AllDigits(s: string) {
    forall i :: 0 <= i < |s| ==> IsDigit(s[i])
  }

  /** Python's `str(n)` for a non-negative integer. */
  function NatToString(n: nat): (r: string)
    ensures |r| >= 1 && AllDigits(r)
    ensures |r| > 1 ==> r[0] != '0'
  {
    if n < 10 then [DigitChar(n)] else NatToString(n / 10) + [DigitChar(n % 10)]
  }

  /** Python's `str(n)` for any integer: a minus sign, then the digits of `|n|`. */
  function IntToString(n: int): (r: string)
    ensures |r| >= 1
    ensures n >= 0 <==> r[0] != '-'
  {
    if n < 0 then "-" + NatToString(-n) else NatToString(n)
  }

  /** The value of a string of decimal digits (Python's `int(s)` on digits only). */
  function ParseNat(s: string): nat
    requires AllDigits(s)
  {
    if |s| == 0 then 0 else ParseNat(s[..|s| - 1]) * 10 + (s[|s| - 1] as int - '0' as int)
  }

  /** The value of an optionally signed decimal string. */
  function ParseInt(s: string): int
    requires |s| >= 1
    requires s[0] == '-' ==> AllDigits(s[1..])
    requires s[0] != '-' ==> AllDigits(s)
  {
    if s[0] == '-' then 0 - ParseNat(s[1..]) else ParseNat(s)
  }

  lemma {:induction false} NatToStringRoundTrip(n: nat)
    ensures ParseNat(NatToString(n)) == n
  {
    if n >= 10 {
      var s := NatToString(n);
      assert s[..|s| - 1] == NatToString(n / 10);
      NatToStringRoundTrip(n / 10);
    }
  }

  /** `str(n)` is read back as `n`: decimal rendering loses nothing. */
  lemma {:induction false} IntToStringRoundTrip(n: int)
    ensures var s := IntToString(n);
      && (s[0] == '-' ==> AllDigits(s[1..]))
      && (s[0] != '-' ==> AllDigits(s))
      && ParseInt(s) == n
  {
    if n < 0 {
      assert IntToString(n)[1..] == NatToString(-n);
      NatToStringRoundTrip(-n);
    } else {
      NatToStringRoundTrip(n);
    }
  }

  /** Distinct integers have distinct decimal renderings. */
  lemma {:induction false} IntToStringInjective(a: int, b: int)
    requires IntToString(a) == IntToString(b)
    ensures a == b
  {
    IntToStringRoundTrip(a);
    IntToStringRoundTrip(b);
  }

  /**
   * At position `i` of `r` stands the decimal numeral of `n`, followed by a
   * space: digits that read back as `n`.
   */
  ghost predicate NumeralAt(r: string, i: int, n: nat) {
    var len := |IntToString(n)|;
    && 0 <= i && i + len < |r|
    && AllDigits(r[i..i + len]) && ParseNat(r[i..i + len]) == n
    && r[i + len] == ' '
  }

  /** `needle` occurs as a contiguous piece of `hay` (Python's `needle in hay` on strings). */
  predicate IsSubstring(needle: string, hay: string) {
    exists i :: 0 <= i <= |hay| - |needle| && OccursAt(needle, hay, i)
  }

  predicate OccursAt(needle: string, hay: string, i: int)
    requires 0 <= i <= |hay| - |needle|
  {
    hay[i..i + |needle|] == needle
  }
}

=== FILE: wrappers.dfy ===
/** The Some/None datatype standing in for Python's `Optional` values and nullable columns. */
module Wrappers {

  datatype Option<+T> = None | Some(value: T) {

    /** The wrapped value, or `default` when there is none. */
    function GetOr(default: T): T {
      match this
      case Some(v) => v
      case None => default
    }
  }
}
